=== FILE: README.md ===
# StockPredictGUI prediction engine in Dafny

A model of the prediction engine of StockPredictGUI, a desktop tool that
reads a candlestick-chart screenshot and a time of day and reports whether the
next move looks bullish or bearish, with a probability split and a confidence
percentage.

The engine (`Predictor.cpp`) works in the following stages, each modelled in
its own module:

- **Extraction** (`Extraction`). Within a crop rectangle of the decoded image,
  each column yields the height of its topmost candle-coloured pixel: the
  first one a top-down scan meets. The
  height is normalised to (0, 1]. A column without such a pixel gets the
  sentinel -1, which a forward and a backward pass then fill from the
  neighbouring columns, or with 0.5 when no column was resolved.
- **Smoothing** (`Smoothing`). A centred moving average whose window is cut
  short at both ends of the series.
- **Swing detection** (`Swings`). Strict local extrema with a window of eight
  points on each side. A cleaning pass then keeps highs and lows alternating
  and drops reversals smaller than 0.02.
- **Sub-scores** (`Scores`):
  - trend: higher highs and higher lows
  - double top or bottom
  - momentum: slope against the standard deviation of the steps, over the
    last 120 points, and 0 for a series of fewer than 20 points
- **Combination** (`Predictor`). The weighted sum 1.6 / 1.0 / 1.2 of the
  sub-scores, clamped to [-6, 6].
- **Time of day** (`Calibration`). The `HH:MM` string is parsed with
  `std::stoi` semantics. Two multipliers then damp the score: one by trading
  session (premarket 0.80, regular 1.00, after hours 0.85) and one near the
  09:30 open (0.70 at the open, rising linearly to 1.00 ten minutes away).
- **Output** (`Predictor`). A logistic sigmoid, applied to the damped score
  itself, gives the bullish probability. The label is only ever Bullish or
  Bearish: Bullish when that probability is at least one half. The confidence
  is 100 times the larger probability.

The module `Timeframe` models `timeframeFromFilename` of `main.cpp`. It reads
the candle timeframe off the chart's file name by substring search.

`Numeric` holds the shared pieces: `Abs`, `Clamp`, sums and means over
sequences, and the facts the model assumes about `exp` and `sqrt`. Floating
point is modelled by exact reals.

## Model

| member | source | states |
|---|---|---|
| `Numeric.Clamp` | Predictor.cpp:16-18 | the result lies in [lo, hi] when lo <= hi; it is x when x is already inside, lo below the range and hi above it |
| `Calibration.Stoi` | Predictor.cpp:22-23 | `std::stoi`: absent (the thrown exception) exactly when, after the leading whitespace, neither a digit nor a sign followed by a digit comes next; an all-digit string reads as its decimal value; a present result is smaller in magnitude than 10^length, so a two-character field cannot overflow |
| `Calibration.StoiReadsDigits` | Predictor.cpp:22-23 | a field starting with a digit reads as the value of its longest digit prefix; a field starting with a sign and a digit reads as that value, negated after '-' |
| `Calibration.StoiSkipsSpace` | Predictor.cpp:22-23 | a leading whitespace character changes neither whether `std::stoi` throws nor what it reads |
| `Calibration.StoiTwoDigits` | Predictor.cpp:22-23 | two decimal digits parse to their two-digit value |
| `Calibration.TimeToMinutes` | Predictor.cpp:20-26 | a string that is not five characters with ':' in the middle is the unknown time -1; the exception can only come from a well-shaped string; every other answer is -1 or a minute of the day in [0, 1440) |
| `Calibration.TimeToMinutesOfClock` | Predictor.cpp:20-26 | on a two-digit "HH:MM" string the result is 60·HH + MM exactly when HH <= 23 and MM <= 59, and -1 otherwise |
| `Calibration.ClockRoundTrip` | Predictor.cpp:20-26 | parsing the zero-padded "HH:MM" rendering of any minute of the day gives that minute back |
| `Calibration.TimeOfFields` | Predictor.cpp:20-26 | once both fields of a well-shaped string have been read, the result is the minute of the day when the hour is in [0, 23] and the minute in [0, 59], and -1 otherwise |
| `Calibration.SignedHourScenario` | Predictor.cpp:20-26 | a signed hour passes the shape test and is read with its sign: "-1:30" is the unknown time by the negative-hour test, and "+1:30" is minute 90 |
| `Calibration.NonDigitFieldThrows` | Predictor.cpp:20-23 | as written, "ab:cd" passes the shape test and then throws in `std::stoi` instead of giving the unknown time |
| `Calibration.ClockMinutes` | Predictor.cpp:20-26 | the corrected parse never throws: it gives -1 or a minute of the day, agrees with the source wherever the source returns, and gives -1 wherever the source throws |
| `Calibration.NonDigitFieldIsUnknown` | Predictor.cpp:20-26 | the corrected parse reads "ab:cd" as the unknown time |
| `Calibration.TimeAdjustmentMultiplier` | Predictor.cpp:28-33 | the session multiplier is one of 0.80, 1.00 and 0.85, and 1.00 for an unknown time |
| `Calibration.SessionMultiplierOfClock` | Predictor.cpp:20-33 | read off the clock: 0.80 exactly from 04:00 to before 09:30, 1.00 exactly from 09:30 through 16:00, and 1.00 for an out-of-range hour or minute |
| `Calibration.OpenConfidenceDecayMultiplier` | Predictor.cpp:35-44 | the multiplier lies in [0.70, 1.00]; it is 1.00 for an unknown time or more than ten minutes from 09:30, and 0.70 + 0.03 per minute of distance inside the window; it reaches 0.70 exactly at 09:30 |
| `Calibration.DecayMonotone` | Predictor.cpp:35-44 | the further a time is from the open, the weaker the damping |
| `Calibration.AtOpenScenario` | Predictor.cpp:35-44 | "09:30" is minute 570 and is damped to 0.70 |
| `Calibration.WindowEdgeScenario` | Predictor.cpp:35-44 | "09:40" is minute 580 and is not damped |
| `Calibration.PastWindowScenario` | Predictor.cpp:35-44 | "09:41" is minute 581 and is not damped |
| `Calibration.InvalidClockScenario` | Predictor.cpp:20-44 | "25:61" is the unknown time, and both multipliers leave it at 1.00 |
| `Extraction.NearColor` | Predictor.cpp:48-54 | a colour match is exactly the box of half-width tol around the target on every channel, both sides checked |
| `Extraction.CandleColoursDisjoint` | Predictor.cpp:85-104 | with tolerance 45, no pixel matches both the bullish green and the bearish magenta |
| `Extraction.FirstCandleRow` | Predictor.cpp:99-110 | the top-down scan finds the topmost candle pixel of the column, and finds nothing exactly when the column has no candle pixel |
| `Extraction.ColumnValue` | Predictor.cpp:96-120 | a column without a candle pixel gives the sentinel -1; otherwise the value is 1 - (y - y0)/(y1 - y0) for the topmost candle row y, a value in (0, 1] |
| `Extraction.ScanColumns` | Predictor.cpp:96-121 | one value per crop column, left to right |
| `Extraction.FirstResolved` | Predictor.cpp:130-136 | the index of the first non-negative entry, with nothing resolved before it |
| `Extraction.LastResolvedBefore` | Predictor.cpp:124-129 | the index of the nearest non-negative entry to the left of i, or -1 |
| `Extraction.GapFilled` | Predictor.cpp:123-136 | gap filling keeps the length, leaves no negative entry, keeps every resolved entry, gives all 0.5 when nothing was resolved, and stays in [0, 1] when the resolved entries were |
| `Extraction.GapTakesNearestEarlier` | Predictor.cpp:124-129 | a gap takes the value of the nearest resolved column to its left |
| `Extraction.LeadingGapTakesFirst` | Predictor.cpp:130-136 | a gap before the first resolved column takes that column's value |
| `Extraction.ForwardPass` | Predictor.cpp:124-129 | after the forward loop, each gap that follows a resolved entry holds the nearest such entry and every other entry is unchanged |
| `Extraction.BackwardPass` | Predictor.cpp:130-136 | the backward loop, run on the forward pass's output, yields exactly the gap-filled series |
| `Extraction.FillGaps` | Predictor.cpp:123-136 | the two in-place passes, forward then backward, compute exactly the gap-filled series |
| `Extraction.ExtractPriceSeries` | Predictor.cpp:93-138 | the extracted series has one entry per crop column, all in [0, 1], and every column with a candle pixel keeps its own normalised height |
| `Extraction.BlankChartIsFlat` | Predictor.cpp:96-136 | a crop without candle pixels extracts to a series flat at 0.5 |
| `Smoothing.Smooth` | Predictor.cpp:141-154 | smoothing keeps the length, and a window of at most 1 returns the series unchanged |
| `Smoothing.SmoothWithinWindow` | Predictor.cpp:145-152 | each smoothed value lies between the bounds of the entries in its truncated window |
| `Smoothing.SmoothPreservesBounds` | Predictor.cpp:141-154 | smoothing keeps a series inside any bounds it respects, in particular [0, 1] |
| `Smoothing.SmoothFlat` | Predictor.cpp:141-154 | a flat series is a fixed point of smoothing |
| `Swings.ScanNeighbours` | Predictor.cpp:163-170 | the early-exit neighbour loop leaves isMax set exactly when the point is strictly above every remaining neighbour, and likewise isMin for strictly below |
| `Swings.RawSwingsFrom` | Predictor.cpp:161-174 | every recorded point is a strict extremum with a full window, classified as a high exactly when it is a maximum; indices increase; and every such extremum is recorded |
| `Swings.RawSwings` | Predictor.cpp:159-174 | the same for the whole series, and nothing for a series shorter than 2w + 1 |
| `Swings.CleanStep` | Predictor.cpp:179-192 | the first swing is kept; a swing of the same kind as the last kept one merges with it, the length staying the same and the more extreme of the two surviving (on a tie the list is left unchanged, so the earlier one stays); a swing of the other kind is appended exactly when it moves at least 0.02 from the last kept one, and otherwise the list is unchanged; every entry before the last is untouched; alternation and increasing indices are kept |
| `Swings.CleanFrom` | Predictor.cpp:176-194 | the cleaning loop never shortens the list, never touches the entries before the last kept one, only replaces an entry by a more extreme swing of its kind, keeps the list alternating and increasing, is non-empty exactly when its input is, and adds nothing that was not a raw swing |
| `Swings.ReversalKept` | Predictor.cpp:189-190 | a swing of the other kind at least 0.02 from the last kept one is kept for good: what was kept stays, and the new position holds that swing or a more extreme one of its kind |
| `Swings.FindSwings` | Predictor.cpp:157-195 | the swings alternate between highs and lows in increasing index order; each one is a strict extremum of the series; there are none for a series shorter than 2w + 1; there is at least one exactly when the series has a strict extremum; and the first is the first raw swing or a more extreme one of its kind |
| `Swings.FirstReversalKept` | Predictor.cpp:176-194 | when the first two raw swings are a high and a low at least 0.02 apart, the result starts with the first of them and has a second swing at least as extreme as the second |
| `Swings.FlatHasNoSwings` | Predictor.cpp:157-174 | a flat series has no swings |
| `Scores.Values` | Predictor.cpp:205-210 | the collected values number exactly the swings of that kind, and a list ending in that kind ends with that swing's value |
| `Scores.ValuesAppend` | Predictor.cpp:205-210 | collecting the values of a concatenation gives the values of the first part followed by those of the second, so each value of that kind is collected once, in swing order |
| `Scores.ValuesSingle` | Predictor.cpp:207-210 | a single swing contributes its value exactly when it is of the kind being collected |
| `Scores.TrendScore` | Predictor.cpp:198-229 | the trend score is -2, 0 or +2; it is 0 with fewer than four swings, and 0 when fewer than two highs or fewer than two lows are among the last ten swings |
| `Scores.LastFourOfAlternating` | Predictor.cpp:205-216 | in alternating swings, the last two highs and the last two lows are the last four swings, interleaved |
| `Scores.LastTwoOfKind` | Predictor.cpp:205-216 | when the last swing and the one two places back are of one kind with a swing of the other kind between them, they are the last two values of that kind |
| `Scores.TrendOnAlternating` | Predictor.cpp:198-229 | on alternating swings the score is ±1 for the last swing against the one two places back, plus ±1 for the one before it, a tie counting as lower |
| `Scores.TrendExtremes` | Predictor.cpp:218-228 | +2 exactly for a higher high with a higher low; -2 exactly when neither is higher |
| `Scores.DoubleTopBottomScore` | Predictor.cpp:262-296 | the reversal score is -1.2, 0 or +1.2, and 0 with fewer than six swings; it is never -1.2 with fewer than two highs, and never +1.2 with fewer than two lows |
| `Scores.DoubleTopBottomOnAlternating` | Predictor.cpp:262-296 | on alternating swings the score is -1.2 exactly for a double top alone, +1.2 exactly for a double bottom alone, both judged within 0.015 |
| `Scores.Momentum` | Predictor.cpp:232-257 | the momentum is 0 for fewer than 20 points |
| `Scores.Variance` | Predictor.cpp:248-251 | the population variance is never negative; it is zero exactly when the sequence is constant |
| `Scores.VarianceBounds` | Predictor.cpp:243-252 | the variance of steps confined to an interval is non-negative and at most the interval's width squared |
| `Scores.MomentumPenalisesChop` | Predictor.cpp:231-256 | chop strictly costs: when the steps over the span are not all equal, the score is strictly below six times the rise |
| `Scores.MomentumAtMostSlope` | Predictor.cpp:239-255 | volatility only lowers the score: it is at most six times the rise over the last 120 points |
| `Scores.MomentumRange` | Predictor.cpp:232-257 | for a series in [0, 1] the momentum lies in [-14, 6] |
| `Scores.MomentumFlat` | Predictor.cpp:232-257 | a flat series has zero momentum |
| `Predictor.Sigmoid` | Predictor.cpp:10-14 | the sigmoid lies in [0, 1]; it is at least 1/2 exactly for non-negative input, and exactly 1/2 only at 0 |
| `Predictor.SigmoidMirror` | Predictor.cpp:10-14 | sigmoid(-x) = 1 - sigmoid(x), for every `exp` meeting `IsExp` (which includes exp(-x) = 1 / exp(x)) |
| `Predictor.ComputeRawScore` | Predictor.cpp:323-346 | the raw score lies in [-6, 6] |
| `Predictor.AdjustedScore` | Predictor.cpp:306-308 | time-of-day damping keeps the sign of the raw score and its zero, never increases its size, and changes nothing for an unknown time |
| `Predictor.DampingKeepsSign` | Predictor.cpp:306-308 | scaling by a factor in (0, 1] keeps sign and zero and never grows the magnitude |
| `Predictor.PredictFromScore` | Predictor.cpp:306-318 | the probabilities sum to 1; the confidence is 100 times the larger one and lies in [50, 100]; the label is Bullish exactly when pBull >= 1/2, which is exactly when the raw score is non-negative, whatever the time |
| `Predictor.PredictWithTime` | Predictor.cpp:300-319 | the prediction fails exactly when the time parse throws; otherwise its probabilities sum to 1, the confidence is in [50, 100] and the label follows the sign of the raw score |
| `Predictor.PredictAtClock` | Predictor.cpp:300-319 | with the corrected parse every time string gives a prediction: the source's own wherever the source returns, and where it throws exactly the prediction for the unknown time -1, which is undamped; probabilities sum to 1, confidence is in [50, 100] and the label follows the raw score's sign |
| `Predictor.PredictionMirror` | Predictor.cpp:306-318 | negating the raw score swaps the two probabilities and keeps the confidence, for every `exp` meeting `IsExp` |
| `Predictor.BlankChartScoresZero` | Predictor.cpp:323-346 | a screenshot without candle pixels in the crop scores exactly 0 |
| `Predictor.BlankChartPrediction` | Predictor.cpp:300-346 | such a screenshot, at any parseable time, predicts 50/50, Bullish, confidence 50 |
| `Timeframe.FindFrom` | main.cpp:35-37 | `std::string::find`: the first occurrence at or after the start position, or no occurrence at all |
| `Timeframe.FindIffContains` | main.cpp:35-37 | `find(sub) != npos` holds exactly when sub occurs in the name |
| `Timeframe.TimeframeFromFilename` | main.cpp:33-39 | the result is 30 exactly when the name contains "test30"; otherwise 5 exactly when it contains "test5"; otherwise 1 exactly when it contains "test1"; otherwise -1 |
| `Timeframe.ContainsInContext` | main.cpp:35-37 | an occurrence survives text added before or after the name |
| `Timeframe.TimeframeInContext` | main.cpp:33-39 | adding a directory or an extension never shortens the timeframe read: 30 stays 30, and a recognised name stays recognised |
| `Timeframe.Test15ReadsAsOne` | main.cpp:33-39 | "charts/test15.png" reads as 1, because the match is by substring |
| `Timeframe.Test30BeatsTest1` | main.cpp:35-37 | "test30" is looked for first, so a name containing both test30 and test1 reads as 30 |

## Findings

| source | as written | input that shows it | evidently intended | confidence | as-written member | corrected member |
|---|---|---|---|---|---|---|
| Predictor.cpp:20-23 | the shape test at line 21 checks only the length and the ':'; a well-shaped string whose hour or minute field has no leading digit reaches `std::stoi`, which throws `std::invalid_argument`, so `predictWithTime` fails instead of treating the time as unknown | "ab:cd" | every malformed time is the unknown time -1, so both multipliers are 1.00 and a prediction is still made | medium; not executed | `Calibration.NonDigitFieldThrows` | `Calibration.ClockMinutes` (used by `Predictor.PredictAtClock`) |

## Left out

- Image decoding (`sf::Image::loadFromFile`, Predictor.cpp:65-68) and its exception. The model starts from a decoded pixel grid.
- The crop is a parameter. The model does not compute it from the `(int)(0.10 * H)`-style casts at Predictor.cpp:75-83.
- Floating point. `float` and `double` are exact reals, so rounding and NaN are not modelled.
- `std::exp` and `std::sqrt` are function parameters. The model knows only the facts stated in `IsExp` (positive, 1 at 0, below 1 for negative and above 1 for positive arguments, exp(-x) = 1 / exp(x)) and `IsSqrt` (a non-negative square root).
- Predictor.h holds only declarations and is not part of this model.
- Everything in main.cpp except `timeframeFromFilename`: the SFML window, fonts, `findAsset`, `loadChart` and the event loop. These are user interface and file-system code.
- `Calibration.TimeToMinutes`: strings are sequences of characters, read as one character per byte, as for ASCII text. `std::string` counts bytes, so a multi-byte UTF-8 character (as in "é:30") changes the length and the position of ':' in the source but not in the model.
- `Calibration.Stoi`: the `std::out_of_range` exception is not modelled. The contract bounds the result by 10^length, so it cannot arise on the two-character fields the engine passes. The values read are stated by `Calibration.StoiReadsDigits` and `Calibration.StoiSkipsSpace` rather than in the function's own contract, to keep its proof small.
- `Scores.Momentum`: the contract alone does not bound the score. The bounds are stated by the lemmas `Scores.MomentumRange`, `Scores.MomentumAtMostSlope` and `Scores.MomentumPenalisesChop`, because they need `sqrt` to satisfy `IsSqrt`.
- `Predictor.ComputeRawScore`: the contract states only the clamp range. The blank-chart lemmas give its value on a concrete class of inputs.

=== FILE: calibration.dfy ===
/** Time-of-day calibration (Predictor.cpp): parsing an "HH:MM" string into a
    minute count, and the two multipliers that scale the raw score by trading
    session and by proximity to the 09:30 open. A minute count of -1 stands for
    an unknown time of day. */
module Calibration {
  import opened Numeric

  // ---------------------------------------------------------------------------
  // std::stoi on short fields
  // ---------------------------------------------------------------------------

  /** The C locale's `isspace`: space, \t, \n, \v, \f, \r. */
  predicate IsSpace(c: char)
  {
    c == ' ' || c == '\t' || c == '\n' || c == '\r' || c as int == 11 || c as int == 12
  }

  predicate IsDigit(c: char)
  {
    '0' <= c <= '9'
  }

  function DigitValue(c: char): (d: nat)
    requires IsDigit(c)
    ensures d <= 9
  {
    c as int - '0' as int
  }

  function Pow10(n: nat): (p: nat)
    ensures 1 <= p
  {
    if n == 0 then 1 else 10 * Pow10(n - 1)
  }

  /** Length of the whitespace prefix of s. */
  function SpaceRun(s: string): (n: nat)
    ensures n <= |s|
    ensures forall k :: 0 <= k < n ==> IsSpace(s[k])
    ensures n < |s| ==> !IsSpace(s[n])
  {
    if |s| == 0 || !IsSpace(s[0]) then 0 else 1 + SpaceRun(s[1..])
  }

  /** Length of the digit prefix of s. */
  function DigitRun(s: string): (n: nat)
    ensures n <= |s|
    ensures forall k :: 0 <= k < n ==> IsDigit(s[k])
    ensures n < |s| ==> !IsDigit(s[n])
  {
    if |s| == 0 || !IsDigit(s[0]) then 0 else 1 + DigitRun(s[1..])
  }

  predicate IsSign(c: char)
  {
    c == '+' || c == '-'
  }

  predicate AllDigits(s: string)
  {
    forall k :: 0 <= k < |s| ==> IsDigit(s[k])
  }

  /** Decimal value of a digit string, most significant digit first. */
  function DigitsValue(s: string): (v: nat)
    requires AllDigits(s)
    ensures v < Pow10(|s|)
  {
    if |s| == 0 then 0 else 10 * DigitsValue(s[..|s| - 1]) + DigitValue(s[|s| - 1])
  }

  /** `std::stoi` in base 10: skip leading whitespace, accept one optional
      sign, then read the longest digit prefix. None stands for the
      `std::invalid_argument` it throws when no digit follows. The result's
      magnitude is below 10^|s|, so on fields of at most nine characters the
      `std::out_of_range` exception cannot arise. */
  function Stoi(s: string): (r: Option<int>)
    ensures var t := s[SpaceRun(s)..];
            r.None? <==> !(0 < |t| && IsDigit(t[0])) && !(1 < |t| && IsSign(t[0]) && IsDigit(t[1]))
    ensures 0 < |s| && AllDigits(s) ==> r == Some(DigitsValue(s))
    ensures r.Some? ==> AbsInt(r.value) < Pow10(|s|)
  {
    var t := s[SpaceRun(s)..];
    var signed := |t| > 0 && IsSign(t[0]);
    var u := if signed then t[1..] else t;
    var n := DigitRun(u);
    if n == 0 then None
    else
      var v: int := DigitsValue(u[..n]);
      assert Pow10(n) <= Pow10(|s|) by { Pow10Monotone(n, |s|); }
      assert 0 < |s| && AllDigits(s) ==> !signed && u[..n] == s by {
        if 0 < |s| && AllDigits(s) {
          DigitRunAll(s);
        }
      }
      if signed && t[0] == '-' then Some(-v) else Some(v)
  }

  /** What `std::stoi` reads from a field that starts with a digit, or with a
      sign and then a digit: the value of the longest digit prefix, negated
      after a '-'. Together with `StoiSkipsSpace` this gives the value of
      every field that does not throw. */
  lemma StoiReadsDigits(s: string)
    ensures 0 < |s| && IsDigit(s[0]) ==> Stoi(s) == Some(DigitsValue(s[..DigitRun(s)]))
    ensures 1 < |s| && IsSign(s[0]) && IsDigit(s[1]) ==>
              var v: int := DigitsValue(s[1..][..DigitRun(s[1..])]);
              Stoi(s) == Some(if s[0] == '-' then -v else v)
  {
    if 0 < |s| && (IsDigit(s[0]) || IsSign(s[0])) {
      assert !IsSpace(s[0]);
      assert s[SpaceRun(s)..] == s;
    }
  }

  /** An all-digit string is its own digit prefix. */
  lemma {:induction false} DigitRunAll(u: string)
    requires AllDigits(u)
    ensures DigitRun(u) == |u|
  {
    if 0 < |u| {
      DigitRunAll(u[1..]);
    }
  }

  /** Leading whitespace is skipped: it changes neither whether `std::stoi`
      throws nor the value it reads. */
  lemma StoiSkipsSpace(s: string)
    requires 0 < |s| && IsSpace(s[0])
    ensures Stoi(s) == Stoi(s[1..])
  {
    assert SpaceRun(s) == 1 + SpaceRun(s[1..]);
    assert s[SpaceRun(s)..] == s[1..][SpaceRun(s[1..])..];
  }

  /** Two decimal digits parse to their two-digit value. */
  lemma StoiTwoDigits(s: string)
    requires |s| == 2 && IsDigit(s[0]) && IsDigit(s[1])
    ensures Stoi(s) == Some(10 * DigitValue(s[0]) + DigitValue(s[1]))
  {
    assert SpaceRun(s) == 0;
    assert s[0..] == s;
    assert DigitRun(s) == 2 by {
      assert DigitRun(s[1..]) == 1 + DigitRun(s[1..][1..]);
    }
    assert s[..2] == s;
    assert DigitsValue(s[..1]) == DigitValue(s[0]) by {
      assert s[..1][..0] == [];
    }
    assert DigitsValue(s) == 10 * DigitsValue(s[..1]) + DigitValue(s[1]);
  }

  lemma {:induction false} Pow10Monotone(m: nat, n: nat)
    requires m <= n
    ensures Pow10(m) <= Pow10(n)
  {
    if m < n {
      Pow10Monotone(m, n - 1);
    }
  }

  // ---------------------------------------------------------------------------
  // timeToMinutes
  // ---------------------------------------------------------------------------

  /** The two-digit clock fields of a well-formed "HH:MM" string. */
  predicate IsClockShape(s: string)
  {
    |s| == 5 && s[2] == ':' && IsDigit(s[0]) && IsDigit(s[1]) && IsDigit(s[3]) && IsDigit(s[4])
  }

  function Hours(s: string): nat
    requires IsClockShape(s)
  {
    10 * DigitValue(s[0]) + DigitValue(s[1])
  }

  function MinutesField(s: string): nat
    requires IsClockShape(s)
  {
    10 * DigitValue(s[3]) + DigitValue(s[4])
  }

  /** `Predictor::timeToMinutes`. Some(-1) is the unknown-time answer; None
      stands for the exception `std::stoi` throws when a field has no digits. */
  function TimeToMinutes(s: string): (r: Option<int>)
    ensures |s| != 5 || s[2] != ':' ==> r == Some(-1)
    ensures r.None? ==> |s| == 5 && s[2] == ':'
    ensures r.Some? ==> r.value == -1 || 0 <= r.value < 1440
  {
    if |s| != 5 || s[2] != ':' then Some(-1)
    else
      match (Stoi(s[0..2]), Stoi(s[3..5]))
      case (Some(hh), Some(mm)) =>
        if hh < 0 || hh > 23 || mm < 0 || mm > 59 then Some(-1) else Some(hh * 60 + mm)
      case _ => None
  }

  /** On a two-digit "HH:MM" string the result is the minute of the day when
      the hour is at most 23 and the minute at most 59, and unknown otherwise. */
  lemma TimeToMinutesOfClock(s: string)
    requires IsClockShape(s)
    ensures TimeToMinutes(s) ==
              (if Hours(s) <= 23 && MinutesField(s) <= 59
               then Some(60 * Hours(s) + MinutesField(s)) else Some(-1))
  {
    StoiTwoDigits(s[0..2]);
    StoiTwoDigits(s[3..5]);
  }

  function DigitChar(d: nat): (c: char)
    requires d <= 9
    ensures IsDigit(c) && DigitValue(c) == d
  {
    ('0' as int + d) as char
  }

  /** The "HH:MM" rendering of a minute count within one day. */
  function ClockString(m: nat): (s: string)
    requires m < 1440
    ensures IsClockShape(s)
  {
    var hh := m / 60;
    var mm := m % 60;
    [DigitChar(hh / 10), DigitChar(hh % 10), ':', DigitChar(mm / 10), DigitChar(mm % 10)]
  }

  /** Parsing inverts rendering: every minute of the day survives the round trip. */
  lemma ClockRoundTrip(m: nat)
    requires m < 1440
    ensures TimeToMinutes(ClockString(m)) == Some(m)
  {
    ClockStringFields(m);
    TimeToMinutesOfClock(ClockString(m));
  }

  /** The rendered fields are the hour and the minute within the hour. */
  lemma ClockStringFields(m: nat)
    requires m < 1440
    ensures Hours(ClockString(m)) == m / 60 && MinutesField(ClockString(m)) == m % 60
  {
  }

  /** As written, a well-shaped string whose fields hold no digits does not
      give the unknown time: `std::stoi` throws instead. */
  lemma NonDigitFieldThrows()
    ensures TimeToMinutes("ab:cd").None?
  {
    var s := "ab:cd";
    assert s[0..2][0] == 'a' && SpaceRun(s[0..2]) == 0;
  }

  /** A signed hour passes the shape test and is read with its sign: "-1:30"
      has hour -1, which the range test turns into the unknown time, while
      "+1:30" is 01:30. */
  lemma SignedHourScenario()
    ensures TimeToMinutes("-1:30") == Some(-1)
    ensures TimeToMinutes("+1:30") == Some(90)
  {
    SignedHourReads("-1:30");
    SignedHourReads("+1:30");
  }

  /** A five-character string "±1:30" reads its hour as a signed 1. */
  lemma SignedHourReads(s: string)
    requires |s| == 5 && IsSign(s[0]) && s[1] == '1' && s[2] == ':' && s[3] == '3' && s[4] == '0'
    ensures TimeToMinutes(s) == if s[0] == '-' then Some(-1) else Some(90)
  {
    var h, m := s[0..2], s[3..5];
    assert h[0] == s[0] && h[1] == '1' && m[0] == '3' && m[1] == '0';
    SignedOne(h);
    StoiTwoDigits(m);
    TimeOfFields(s, if s[0] == '-' then -1 else 1, 30);
  }

  /** `timeToMinutes` once both fields have been read. */
  lemma TimeOfFields(s: string, hh: int, mm: int)
    requires |s| == 5 && s[2] == ':'
    requires Stoi(s[0..2]) == Some(hh) && Stoi(s[3..5]) == Some(mm)
    ensures TimeToMinutes(s) == if hh < 0 || hh > 23 || mm < 0 || mm > 59 then Some(-1) else Some(hh * 60 + mm)
  {
  }

  /** A sign followed by the digit 1 reads as that signed one. */
  lemma SignedOne(s: string)
    requires |s| == 2 && IsSign(s[0]) && s[1] == '1'
    ensures Stoi(s) == Some(if s[0] == '-' then -1 else 1)
  {
    var u := s[1..];
    assert u[0] == '1' && |u| == 1;
    assert DigitRun(u) == 1 by { assert |u[1..]| == 0; }
    assert u[..1] == u;
    assert DigitsValue(u) == 1 by { assert u[..0] == []; }
  }

  /** The evidently intended parse: every malformed string, including one
      whose fields hold no digits, is the unknown time -1, and no string
      raises an error. Wherever the source returns, it returns the same. */
  function ClockMinutes(s: string): (m: int)
    ensures m == -1 || 0 <= m < 1440
    ensures TimeToMinutes(s).Some? ==> m == TimeToMinutes(s).value
    ensures TimeToMinutes(s).None? ==> m == -1
  {
    if |s| != 5 || s[2] != ':' then -1
    else
      match (Stoi(s[0..2]), Stoi(s[3..5]))
      case (Some(hh), Some(mm)) =>
        if hh < 0 || hh > 23 || mm < 0 || mm > 59 then -1 else hh * 60 + mm
      case _ => -1
  }

  /** The corrected parse reads "ab:cd" as the unknown time. */
  lemma NonDigitFieldIsUnknown()
    ensures ClockMinutes("ab:cd") == -1
  {
    NonDigitFieldThrows();
  }

  // ---------------------------------------------------------------------------
  // Multipliers
  // ---------------------------------------------------------------------------

  const Open: int := 570          // 09:30
  const OpenWindow: int := 10     // +/- 10 minutes

  /** `Predictor::timeAdjustmentMultiplier`: premarket, regular session or
      after hours; unknown time leaves the score alone. */
  function TimeAdjustmentMultiplier(minutes: int): (r: real)
    ensures r == 0.80 || r == 1.0 || r == 0.85
    ensures minutes < 0 ==> r == 1.0
  {
    if minutes < 0 then 1.0
    else if 240 <= minutes < 570 then 0.80
    else if 570 <= minutes <= 960 then 1.0
    else 0.85
  }

  /** `Predictor::openConfidenceDecayMultiplier`: damps confidence linearly
      within ten minutes of the open. */
  function OpenConfidenceDecayMultiplier(minutes: int): (r: real)
    ensures 0.70 <= r <= 1.0
    ensures minutes < 0 || AbsInt(minutes - Open) > OpenWindow ==> r == 1.0
    ensures 0 <= minutes && AbsInt(minutes - Open) <= OpenWindow ==>
              r == 0.70 + 0.03 * AbsInt(minutes - Open) as real
    ensures r == 0.70 <==> minutes == Open
  {
    if minutes < 0 then 1.0
    else
      var dist := AbsInt(minutes - Open);
      if dist > OpenWindow then 1.0
      else
        var t := dist as real / OpenWindow as real;
        Clamp(0.70 + 0.30 * t, 0.70, 1.00)
  }

  /** The session multiplier read off the clock: 0.80 from 04:00 up to but
      excluding 09:30, 1.00 from 09:30 through 16:00, 0.85 at every other
      valid time, and 1.00 when the string is not a valid time. */
  lemma {:induction false} SessionMultiplierOfClock(s: string)
    requires IsClockShape(s)
    ensures var hh, mm := Hours(s), MinutesField(s);
            var m := TimeToMinutes(s).value;
            && (hh > 23 || mm > 59 ==> TimeAdjustmentMultiplier(m) == 1.0)
            && (hh <= 23 && mm <= 59 ==>
                  && (TimeAdjustmentMultiplier(m) == 0.80 <==> 4 <= hh < 9 || (hh == 9 && mm < 30))
                  && (TimeAdjustmentMultiplier(m) == 1.0 <==>
                        (hh == 9 && 30 <= mm) || 10 <= hh < 16 || (hh == 16 && mm == 0)))
  {
    var hh, mm := Hours(s), MinutesField(s);
    TimeToMinutesOfClock(s);
    if hh <= 23 && mm <= 59 {
      var m := 60 * hh + mm;
      assert TimeToMinutes(s).value == m;
      assert 240 <= m < 570 <==> 4 <= hh < 9 || (hh == 9 && mm < 30);
      assert 570 <= m <= 960 <==> (hh == 9 && 30 <= mm) || 10 <= hh < 16 || (hh == 16 && mm == 0);
    }
  }

  /** Confidence damping never decreases as the time moves away from the open. */
  lemma DecayMonotone(m1: int, m2: int)
    requires 0 <= m1 && 0 <= m2
    requires AbsInt(m1 - Open) <= AbsInt(m2 - Open)
    ensures OpenConfidenceDecayMultiplier(m1) <= OpenConfidenceDecayMultiplier(m2)
  {
  }

  /** A concrete clock string with its hour and minute fields. */
  lemma ClockFields(s: string, hh: nat, mm: nat)
    requires |s| == 5 && s[2] == ':'
    requires s[0] as int - '0' as int == hh / 10 && s[1] as int - '0' as int == hh % 10
    requires s[3] as int - '0' as int == mm / 10 && s[4] as int - '0' as int == mm % 10
    requires hh <= 23 && mm <= 59
    ensures TimeToMinutes(s) == Some(60 * hh + mm)
  {
    assert IsClockShape(s);
    TimeToMinutesOfClock(s);
  }

  /** The open itself, 09:30, gets the strongest damping, 0.70. */
  lemma AtOpenScenario()
    ensures TimeToMinutes("09:30") == Some(570)
    ensures OpenConfidenceDecayMultiplier(570) == 0.70
  {
    ClockFields("09:30", 9, 30);
  }

  /** Ten minutes after the open, 09:40, the damping has died out. */
  lemma WindowEdgeScenario()
    ensures TimeToMinutes("09:40") == Some(580)
    ensures OpenConfidenceDecayMultiplier(580) == 1.0
  {
    ClockFields("09:40", 9, 40);
  }

  /** Outside the window, 09:41, there is no damping. */
  lemma PastWindowScenario()
    ensures TimeToMinutes("09:41") == Some(581)
    ensures OpenConfidenceDecayMultiplier(581) == 1.0
  {
    ClockFields("09:41", 9, 41);
  }

  /** The malformed "25:61" is an unknown time, so both multipliers are 1.00. */
  lemma InvalidClockScenario()
    ensures TimeToMinutes("25:61") == Some(-1)
    ensures TimeAdjustmentMultiplier(-1) == 1.0 && OpenConfidenceDecayMultiplier(-1) == 1.0
  {
    TimeToMinutesOfClock("25:61");
  }
}

=== FILE: extraction.dfy ===
/** Colour-based price extraction (`Predictor::nearColor` and the body of
    `Predictor::extractPriceSeriesFromScreenshot`). The decoded screenshot is
    an abstract pixel grid; the crop rectangle is a parameter. Every column of
    the crop yields the height of its topmost candle pixel, normalised to
    (0, 1], or the sentinel -1 when it has none; the gaps are then filled from
    neighbouring columns. */
module Extraction {
  import opened Numeric

  datatype Rgb = Rgb(r: int, g: int, b: int)

  /** A decoded image: `rows[y][x]`, row 0 at the top. */
  datatype Image = Image(width: nat, rows: seq<seq<Rgb>>)
  {
    predicate Valid()
    {
      forall y :: 0 <= y < |rows| ==> |rows[y]| == width
    }

    function Height(): nat
    {
      |rows|
    }
  }

  /** The chart area: rows y0 .. y1-1 and columns x0 .. x1-1. */
  datatype Crop = Crop(y0: int, y1: int, x0: int, x1: int)

  predicate CropFits(img: Image, c: Crop)
  {
    && img.Valid()
    && 0 <= c.y0 <= c.y1 <= img.Height()
    && 0 <= c.x0 <= c.x1 <= img.width
  }

  const Tolerance: int := 45
  const BullColour: Rgb := Rgb(40, 220, 140)    // green candles
  const BearColour: Rgb := Rgb(220, 60, 220)    // magenta candles
  const Sentinel: real := -1.0

  /** `Predictor::nearColor`: each channel within `tol` of the target. A
      match is the channel-wise box of half-width tol around the target,
      with both sides of every channel checked. */
  function NearColor(p: Rgb, target: Rgb, tol: int): (b: bool)
    ensures b <==>
              && target.r - tol <= p.r <= target.r + tol
              && target.g - tol <= p.g <= target.g + tol
              && target.b - tol <= p.b <= target.b + tol
  {
    && AbsInt(p.r - target.r) <= tol
    && AbsInt(p.g - target.g) <= tol
    && AbsInt(p.b - target.b) <= tol
  }

  predicate IsBull(p: Rgb)
  {
    NearColor(p, BullColour, Tolerance)
  }

  predicate IsBear(p: Rgb)
  {
    NearColor(p, BearColour, Tolerance)
  }

  predicate IsCandle(p: Rgb)
  {
    IsBull(p) || IsBear(p)
  }

  /** The two candle colours are far enough apart that no pixel is both. */
  lemma CandleColoursDisjoint(p: Rgb)
    ensures !(IsBull(p) && IsBear(p))
  {
  }

  /** Column x has a candle pixel in rows lo .. hi-1. */
  ghost predicate CandleIn(img: Image, x: int, lo: int, hi: int)
    requires img.Valid() && 0 <= x < img.width && 0 <= lo && hi <= img.Height()
  {
    exists y :: lo <= y < hi && IsCandle(img.rows[y][x])
  }

  /** Row y is the topmost candle pixel of column x in rows lo .. hi-1. */
  ghost predicate IsTopmostCandle(img: Image, x: int, lo: int, hi: int, y: int)
    requires img.Valid() && 0 <= x < img.width && 0 <= lo && hi <= img.Height()
  {
    && lo <= y < hi
    && IsCandle(img.rows[y][x])
    && forall k :: lo <= k < y ==> !IsCandle(img.rows[k][x])
  }

  /** The inner top-down scan: the first candle row at or below y. */
  function FirstCandleRow(img: Image, x: int, y: int, hi: int): (r: Option<int>)
    requires img.Valid() && 0 <= x < img.width && 0 <= y <= hi <= img.Height()
    ensures r.Some? ==> IsTopmostCandle(img, x, y, hi, r.value)
    ensures r.None? <==> !CandleIn(img, x, y, hi)
    decreases hi - y
  {
    if y == hi then None
    else if IsCandle(img.rows[y][x]) then Some(y)
    else FirstCandleRow(img, x, y + 1, hi)
  }

  /** The value one column contributes before gap filling. */
  function ColumnValue(img: Image, c: Crop, x: int): (v: real)
    requires CropFits(img, c) && c.x0 <= x < c.x1
    ensures !CandleIn(img, x, c.y0, c.y1) ==> v == Sentinel
    ensures CandleIn(img, x, c.y0, c.y1) ==> 0.0 < v <= 1.0
    ensures forall y :: IsTopmostCandle(img, x, c.y0, c.y1, y) ==>
              v == 1.0 - (y - c.y0) as real / (c.y1 - c.y0) as real
  {
    match FirstCandleRow(img, x, c.y0, c.y1)
    case None => Sentinel
    case Some(bestY) =>
      var norm := 1.0 - (bestY - c.y0) as real / (c.y1 - c.y0) as real;
      assert 0.0 < norm <= 1.0 by { FractionBelowOne(bestY - c.y0, c.y1 - c.y0); }
      Clamp(norm, 0.0, 1.0)
  }

  lemma FractionBelowOne(a: int, b: int)
    requires 0 <= a < b
    ensures 0.0 <= a as real / b as real < 1.0
  {
    assert a as real / b as real < b as real / b as real by { DivMonotoneStrict(a as real, b as real, b as real); }
  }

  /** The column scan: one value per column of the crop, left to right. */
  function ScanColumns(img: Image, c: Crop): (s: seq<real>)
    requires CropFits(img, c)
    ensures |s| == c.x1 - c.x0
    ensures forall i :: 0 <= i < |s| ==> s[i] == ColumnValue(img, c, c.x0 + i)
  {
    seq(c.x1 - c.x0, i requires 0 <= i < c.x1 - c.x0 => ColumnValue(img, c, c.x0 + i))
  }

  // ---------------------------------------------------------------------------
  // Gap filling
  // ---------------------------------------------------------------------------

  /** An entry the scan resolved; the source tests `v >= 0`. */
  predicate Resolved(v: real)
  {
    v >= 0.0
  }

  /** Index of the first resolved entry, or |s| when there is none. */
  function FirstResolved(s: seq<real>): (f: nat)
    ensures f <= |s|
    ensures forall k :: 0 <= k < f ==> !Resolved(s[k])
    ensures f < |s| ==> Resolved(s[f])
  {
    if |s| == 0 then 0
    else if Resolved(s[0]) then 0
    else 1 + FirstResolved(s[1..])
  }

  /** Index of the last resolved entry before position i, or -1. */
  function LastResolvedBefore(s: seq<real>, i: int): (j: int)
    requires 0 <= i <= |s|
    ensures -1 <= j < i
    ensures 0 <= j ==> Resolved(s[j])
    ensures forall k :: j < k < i ==> !Resolved(s[k])
    decreases i
  {
    if i == 0 then -1
    else if Resolved(s[i - 1]) then i - 1
    else LastResolvedBefore(s, i - 1)
  }

  /** What gap filling puts at position i: a resolved entry stays; a gap
      takes the nearest resolved entry to its left, a leading gap the first
      resolved entry, and a series without any resolved entry 0.5. */
  function FillAt(s: seq<real>, i: int): real
    requires 0 <= i < |s|
  {
    if Resolved(s[i]) then s[i]
    else
      var j := LastResolvedBefore(s, i);
      if 0 <= j then s[j]
      else
        var f := FirstResolved(s);
        if f < |s| then s[f] else 0.5
  }

  /** The series after the forward and backward gap-filling passes. */
  function GapFilled(s: seq<real>): (r: seq<real>)
    ensures |r| == |s|
    ensures forall i :: 0 <= i < |s| ==> Resolved(r[i])
    ensures forall i :: 0 <= i < |s| && Resolved(s[i]) ==> r[i] == s[i]
    ensures (forall i :: 0 <= i < |s| ==> !Resolved(s[i])) ==> Constant(r, 0.5)
    ensures (forall i :: 0 <= i < |s| && Resolved(s[i]) ==> s[i] <= 1.0) ==> Within(r, 0.0, 1.0)
  {
    seq(|s|, i requires 0 <= i < |s| => FillAt(s, i))
  }

  /** A gap after a resolved entry j, with nothing resolved in between,
      takes the value of entry j. */
  lemma GapTakesNearestEarlier(s: seq<real>, j: int, i: int)
    requires 0 <= j < i < |s|
    requires Resolved(s[j])
    requires forall k :: j < k <= i ==> !Resolved(s[k])
    ensures GapFilled(s)[i] == s[j]
  {
  }

  /** A gap before the first resolved entry f takes the value of entry f. */
  lemma LeadingGapTakesFirst(s: seq<real>, f: int, i: int)
    requires 0 <= i < f < |s|
    requires Resolved(s[f])
    requires forall k :: 0 <= k < f ==> !Resolved(s[k])
    ensures GapFilled(s)[i] == s[f]
  {
  }

  /** What the forward pass leaves at position k: a gap after some resolved
      entry takes the nearest such entry; every other entry is untouched. */
  function ForwardValue(s: seq<real>, k: int): real
    requires 0 <= k < |s|
  {
    var j := LastResolvedBefore(s, k);
    if Resolved(s[k]) || j < 0 then s[k] else s[j]
  }

  /** The forward loop of the source: carry the last resolved value into
      the gaps after it. */
  method ForwardPass(s: seq<real>) returns (t: seq<real>)
    ensures |t| == |s|
    ensures forall k :: 0 <= k < |s| ==> t[k] == ForwardValue(s, k)
  {
    var n := |s|;
    t := s;
    var last := -1.0;
    var i := 0;
    while i < n
      invariant 0 <= i <= n && |t| == n
      invariant forall k :: i <= k < n ==> t[k] == s[k]
      invariant forall k :: 0 <= k < i ==> t[k] == ForwardValue(s, k)
      invariant var j := LastResolvedBefore(s, i);
                if 0 <= j then last == s[j] else last < 0.0
    {
      var v := t[i];
      if v >= 0.0 {
        last := v;
      } else if last >= 0.0 {
        t := t[i := last];
      }
      i := i + 1;
    }
  }

  /** The backward loop of the source, run on the forward pass's output:
      carry the next resolved value into the gaps still left, or 0.5 when
      there is none. */
  method BackwardPass(s: seq<real>, t: seq<real>) returns (r: seq<real>)
    requires |t| == |s|
    requires forall k :: 0 <= k < |s| ==> t[k] == ForwardValue(s, k)
    ensures r == GapFilled(s)
  {
    var n := |s|;
    ghost var f := FirstResolved(s);
    var next := -1.0;
    r := t;
    var j := n - 1;
    while j >= 0
      invariant -1 <= j < n && |r| == n
      invariant forall k :: 0 <= k <= j ==> r[k] == t[k]
      invariant forall k :: j < k < n ==> r[k] == FillAt(s, k)
      invariant j < f ==> if f < n then next == s[f] else next < 0.0
    {
      if r[j] >= 0.0 {
        next := r[j];
      } else if next >= 0.0 {
        r := r[j := next];
      } else {
        r := r[j := 0.5];
      }
      j := j - 1;
    }
  }

  /** Both passes in sequence compute exactly the gap-filled series. */
  method FillGaps(s: seq<real>) returns (r: seq<real>)
    ensures r == GapFilled(s)
  {
    var t := ForwardPass(s);
    r := BackwardPass(s, t);
  }

  // ---------------------------------------------------------------------------
  // The extracted series
  // ---------------------------------------------------------------------------

  /** `extractPriceSeriesFromScreenshot` after the image has been decoded:
      one value per crop column, every one in [0, 1]. */
  function ExtractPriceSeries(img: Image, c: Crop): (s: seq<real>)
    requires CropFits(img, c)
    ensures |s| == c.x1 - c.x0
    ensures Within(s, 0.0, 1.0)
    ensures forall i :: 0 <= i < |s| && CandleIn(img, c.x0 + i, c.y0, c.y1) ==>
              s[i] == ColumnValue(img, c, c.x0 + i)
  {
    GapFilled(ScanColumns(img, c))
  }

  /** A chart with no candle-coloured pixel in the crop extracts to a flat
      series at 0.5. */
  lemma BlankChartIsFlat(img: Image, c: Crop)
    requires CropFits(img, c)
    requires forall x, y :: c.x0 <= x < c.x1 && c.y0 <= y < c.y1 ==> !IsCandle(img.rows[y][x])
    ensures Constant(ExtractPriceSeries(img, c), 0.5)
  {
    var cols := ScanColumns(img, c);
    forall i | 0 <= i < |cols|
      ensures !Resolved(cols[i])
    {
      assert !CandleIn(img, c.x0 + i, c.y0, c.y1);
    }
  }
}

=== FILE: numeric.dfy ===
/** Shared numeric vocabulary for the predictor model: an option type, absolute
    value, the predictor's `clamp`, sums and bounds over sequences of reals, and
    the facts the model assumes about the C library's `exp` and `sqrt`, which
    are passed in as function values rather than defined here. */
module Numeric {

  datatype Option<T> = None | Some(value: T)

  function Abs(x: real): (r: real)
    ensures 0.0 <= r
    ensures r == x || r == -x
  {
    if x < 0.0 then -x else x
  }

  function AbsInt(x: int): (r: nat)
    ensures r == x || r == -x
  {
    if x < 0 then -x else x
  }

  /** `Predictor::clamp`, written as max(lo, min(hi, x)) in the source. */
  function Clamp(x: real, lo: real, hi: real): (r: real)
    ensures lo <= hi ==> lo <= r <= hi
    ensures lo <= x <= hi ==> r == x
    ensures x < lo ==> r == lo
    ensures lo <= hi < x ==> r == hi
  {
    var m := if x < hi then x else hi;
    if lo < m then m else lo
  }

  /** Sum of a sequence, accumulated left to right as `std::accumulate` does. */
  function Sum(s: seq<real>): real
  {
    if |s| == 0 then 0.0 else Sum(s[..|s| - 1]) + s[|s| - 1]
  }

  /** Arithmetic mean of a non-empty sequence. */
  function Mean(s: seq<real>): real
    requires |s| > 0
  {
    Sum(s) / |s| as real
  }

  /** Every entry of s lies in [lo, hi]. */
  predicate Within(s: seq<real>, lo: real, hi: real)
  {
    forall i :: 0 <= i < |s| ==> lo <= s[i] <= hi
  }

  /** Every entry of s equals c. */
  predicate Constant(s: seq<real>, c: real)
  {
    forall i :: 0 <= i < |s| ==> s[i] == c
  }

  lemma {:induction false} SumWithin(s: seq<real>, lo: real, hi: real)
    requires Within(s, lo, hi)
    ensures lo * |s| as real <= Sum(s) <= hi * |s| as real
  {
    if |s| > 0 {
      var init := s[..|s| - 1];
      assert Within(init, lo, hi);
      SumWithin(init, lo, hi);
      assert lo * |s| as real == lo * |init| as real + lo;
      assert hi * |s| as real == hi * |init| as real + hi;
    }
  }

  /** A sum of non-negative entries with one positive entry is positive. */
  lemma {:induction false} SumPositive(s: seq<real>, j: int)
    requires forall i :: 0 <= i < |s| ==> 0.0 <= s[i]
    requires 0 <= j < |s| && 0.0 < s[j]
    ensures 0.0 < Sum(s)
  {
    var init := s[..|s| - 1];
    if j < |s| - 1 {
      assert init[j] == s[j];
      SumPositive(init, j);
    } else {
      SumNonNegative(init);
    }
  }

  lemma {:induction false} SumNonNegative(s: seq<real>)
    requires forall i :: 0 <= i < |s| ==> 0.0 <= s[i]
    ensures 0.0 <= Sum(s)
  {
    if |s| > 0 {
      var init := s[..|s| - 1];
      assert forall i :: 0 <= i < |init| ==> init[i] == s[i];
      SumNonNegative(init);
    }
  }

  /** The mean of a non-empty sequence lies within any bounds of its entries. */
  lemma MeanWithin(s: seq<real>, lo: real, hi: real)
    requires |s| > 0
    requires Within(s, lo, hi)
    ensures lo <= Mean(s) <= hi
  {
    var n := |s| as real;
    SumWithin(s, lo, hi);
    assert lo * n / n == lo;
    assert hi * n / n == hi;
    DivMonotone(lo * n, Sum(s), n);
    DivMonotone(Sum(s), hi * n, n);
  }

  lemma DivMonotone(a: real, b: real, n: real)
    requires 0.0 < n
    requires a <= b
    ensures a / n <= b / n
  {
  }

  lemma DivMonotoneStrict(a: real, b: real, n: real)
    requires 0.0 < n && a < b
    ensures a / n < b / n
  {
  }

  /** What the model relies on about `std::exp`: it is positive, below 1 on
      negative arguments, above 1 on positive ones, exactly 1 at 0, and
      exp(-x) is the reciprocal of exp(x). */
  ghost predicate IsExp(exp: real -> real)
  {
    && exp(0.0) == 1.0
    && (forall x :: 0.0 < exp(x) && (x < 0.0 ==> exp(x) < 1.0) && (0.0 < x ==> 1.0 < exp(x)))
    && (forall x :: exp(x) * exp(-x) == 1.0)
  }

  /** What the model relies on about `std::sqrt` on non-negative arguments:
      a non-negative square root. */
  ghost predicate IsSqrt(sqrt: real -> real)
  {
    forall x :: 0.0 <= x ==> 0.0 <= sqrt(x) && sqrt(x) * sqrt(x) == x
  }

  /** A non-negative root of a value at most b*b is at most b. */
  lemma RootBound(r: real, v: real, b: real)
    requires 0.0 <= r && 0.0 <= b
    requires r * r == v && v <= b * b
    ensures r <= b
  {
    var s := r + b;
    if s > 0.0 {
      var q := (r - b) * s;
      assert q == r * r - b * b;
      assert q / s == r - b;
      DivMonotone(q, 0.0, s);
    }
  }
}

=== FILE: prediction.dfy ===
/** The scoring pipeline of Predictor.cpp once the screenshot is decoded:
    `computeRawScore` (extract, smooth, find swings, score, combine, clamp)
    and `predictWithTime` (time-of-day damping, sigmoid, label). */
module Predictor {
  import opened Numeric
  import opened Calibration
  import opened Extraction
  import opened Smoothing
  import opened Swings
  import opened Scores

  const SmoothWindow: int := 3
  const SwingWindow: int := 8
  const TrendWeight: real := 1.6
  const MomentumWeight: real := 1.0
  const ReversalWeight: real := 1.2
  const RawLimit: real := 6.0
  const Saturation: real := 50.0

  datatype Label = Bullish | Bearish

  datatype Prediction = Prediction(pBull: real, pBear: real, verdict: Label, confidence: real)

  /** `Predictor::sigmoid` with `exp` supplied by the caller; saturated to
      exactly 0 or 1 beyond +-50. */
  function Sigmoid(x: real, exp: real -> real): (p: real)
    requires IsExp(exp)
    ensures 0.0 <= p <= 1.0
    ensures 0.5 <= p <==> 0.0 <= x
    ensures p == 0.5 <==> x == 0.0
  {
    if x > Saturation then 1.0
    else if x < -Saturation then 0.0
    else
      var e := exp(-x);
      ReciprocalAgainstHalf(e);
      1.0 / (1.0 + e)
  }

  /** For e > 0, 1 / (1 + e) is in (0, 1), at least one half exactly when
      e <= 1, and one half exactly when e = 1. */
  lemma ReciprocalAgainstHalf(e: real)
    requires 0.0 < e
    ensures 0.0 < 1.0 / (1.0 + e) < 1.0
    ensures 0.5 <= 1.0 / (1.0 + e) <==> e <= 1.0
    ensures 1.0 / (1.0 + e) == 0.5 <==> e == 1.0
  {
    var p := 1.0 / (1.0 + e);
    assert p * (1.0 + e) == 1.0;
    if e <= 1.0 {
      assert 0.5 * (1.0 + e) <= 1.0;
    } else {
      assert 0.5 * (1.0 + e) > 1.0;
    }
  }

  /** The sigmoid is symmetric about 0. */
  lemma SigmoidMirror(x: real, exp: real -> real)
    requires IsExp(exp)
    ensures Sigmoid(-x, exp) == 1.0 - Sigmoid(x, exp)
  {
    if -Saturation <= x <= Saturation {
      var e, f := exp(-x), exp(x);
      assert f == 1.0 / e;
      calc {
        1.0 / (1.0 + f);
        1.0 / (1.0 + 1.0 / e);
        e / (e + 1.0);
        1.0 - 1.0 / (1.0 + e);
      }
    }
  }

  /** `computeRawScore` after the image has been decoded: the weighted sum of
      trend, momentum and reversal scores on the smoothed series, clamped to
      [-6, 6]. `sqrt` stands for `std::sqrt`. */
  function ComputeRawScore(img: Image, crop: Crop, sqrt: real -> real): (raw: real)
    requires CropFits(img, crop)
    ensures -RawLimit <= raw <= RawLimit
  {
    var series := ExtractPriceSeries(img, crop);
    var smooth := Smooth(series, SmoothWindow);
    var swings := FindSwings(smooth, SwingWindow);
    var t := TrendScore(swings);
    var m := Momentum(smooth, sqrt);
    var r := DoubleTopBottomScore(swings);
    Clamp(TrendWeight * t + MomentumWeight * m + ReversalWeight * r, -RawLimit, RawLimit)
  }

  /** The raw score scaled by both time-of-day multipliers. Damping never
      flips the sign, never amplifies, and an unknown time changes nothing. */
  function AdjustedScore(raw: real, minutes: int): (a: real)
    ensures 0.0 <= a <==> 0.0 <= raw
    ensures a == 0.0 <==> raw == 0.0
    ensures Abs(a) <= Abs(raw)
    ensures minutes < 0 ==> a == raw
  {
    var m1 := TimeAdjustmentMultiplier(minutes);
    var m2 := OpenConfidenceDecayMultiplier(minutes);
    DampingKeepsSign(raw, m1 * m2);
    raw * m1 * m2
  }

  /** Scaling by a factor in (0, 1] keeps the sign and never grows the size. */
  lemma DampingKeepsSign(x: real, k: real)
    requires 0.0 < k <= 1.0
    ensures 0.0 <= x * k <==> 0.0 <= x
    ensures x * k == 0.0 <==> x == 0.0
    ensures Abs(x * k) <= Abs(x)
  {
    var y := Abs(x);
    assert y - y * k == y * (1.0 - k);
    MulNonNegative(y, 1.0 - k);
    assert Abs(x * k) == y * k;
  }

  lemma MulNonNegative(a: real, b: real)
    requires 0.0 <= a && 0.0 <= b
    ensures 0.0 <= a * b
  {
  }

  /** The tail of `predictWithTime` once the raw score and the minute of the
      day are known. The label is Bullish exactly when the raw score is
      non-negative, whatever the time of day. */
  function PredictFromScore(raw: real, minutes: int, exp: real -> real): (p: Prediction)
    requires IsExp(exp)
    ensures p.pBull + p.pBear == 1.0
    ensures 0.0 <= p.pBull <= 1.0
    ensures 50.0 <= p.confidence <= 100.0
    ensures p.confidence == 100.0 * (if p.pBull < p.pBear then p.pBear else p.pBull)
    ensures p.verdict == Bullish <==> 0.5 <= p.pBull
    ensures p.verdict == Bullish <==> 0.0 <= raw
  {
    var pBull := Sigmoid(AdjustedScore(raw, minutes), exp);
    var pBear := 1.0 - pBull;
    Prediction(pBull, pBear,
               if pBull >= 0.5 then Bullish else Bearish,
               100.0 * (if pBull < pBear then pBear else pBull))
  }

  /** `Predictor::predictWithTime` on a decoded screenshot. None stands for
      the exception the time parse throws on a field without digits. */
  function PredictWithTime(img: Image, crop: Crop, timeStr: string,
                           exp: real -> real, sqrt: real -> real): (r: Option<Prediction>)
    requires CropFits(img, crop) && IsExp(exp)
    ensures r.None? <==> TimeToMinutes(timeStr).None?
    ensures r.Some? ==>
              && r.value.pBull + r.value.pBear == 1.0
              && 50.0 <= r.value.confidence <= 100.0
              && (r.value.verdict == Bullish <==> 0.0 <= ComputeRawScore(img, crop, sqrt))
  {
    match TimeToMinutes(timeStr)
    case None => None
    case Some(minutes) => Some(PredictFromScore(ComputeRawScore(img, crop, sqrt), minutes, exp))
  }

  /** `predictWithTime` with the corrected time parse `ClockMinutes`: every
      time string gives a prediction. Wherever the source's parse succeeds
      this is the source's prediction; where the source throws, the time is
      treated as unknown and the score is left undamped. */
  function PredictAtClock(img: Image, crop: Crop, timeStr: string,
                          exp: real -> real, sqrt: real -> real): (p: Prediction)
    requires CropFits(img, crop) && IsExp(exp)
    ensures PredictWithTime(img, crop, timeStr, exp, sqrt).Some? ==>
              p == PredictWithTime(img, crop, timeStr, exp, sqrt).value
    ensures p.pBull + p.pBear == 1.0 && 50.0 <= p.confidence <= 100.0
    ensures p.verdict == Bullish <==> 0.0 <= ComputeRawScore(img, crop, sqrt)
    ensures TimeToMinutes(timeStr).None? ==> p == PredictFromScore(ComputeRawScore(img, crop, sqrt), -1, exp)
    ensures TimeToMinutes(timeStr).None? ==> p.pBull == Sigmoid(ComputeRawScore(img, crop, sqrt), exp)
  {
    PredictFromScore(ComputeRawScore(img, crop, sqrt), ClockMinutes(timeStr), exp)
  }

  /** Negating the raw score swaps the two probabilities and keeps the
      confidence. */
  lemma PredictionMirror(raw: real, minutes: int, exp: real -> real)
    requires IsExp(exp)
    ensures PredictFromScore(-raw, minutes, exp).pBull == PredictFromScore(raw, minutes, exp).pBear
    ensures PredictFromScore(-raw, minutes, exp).confidence == PredictFromScore(raw, minutes, exp).confidence
  {
    var a := AdjustedScore(raw, minutes);
    assert AdjustedScore(-raw, minutes) == -a;
    SigmoidMirror(a, exp);
  }

  /** A screenshot without a candle-coloured pixel in the crop has a raw
      score of 0: its series is flat at 0.5, so there are no swings and no
      momentum. */
  lemma BlankChartScoresZero(img: Image, crop: Crop, sqrt: real -> real)
    requires CropFits(img, crop) && IsSqrt(sqrt)
    requires forall x, y :: crop.x0 <= x < crop.x1 && crop.y0 <= y < crop.y1 ==> !IsCandle(img.rows[y][x])
    ensures ComputeRawScore(img, crop, sqrt) == 0.0
  {
    var series := ExtractPriceSeries(img, crop);
    BlankChartIsFlat(img, crop);
    SmoothFlat(series, SmoothWindow, 0.5);
    FlatHasNoSwings(series, SwingWindow, 0.5);
    MomentumFlat(series, sqrt, 0.5);
  }

  /** On such a screenshot, at any time the parse accepts, the prediction is
      an even split labelled Bullish with confidence 50. */
  lemma BlankChartPrediction(img: Image, crop: Crop, timeStr: string,
                             exp: real -> real, sqrt: real -> real)
    requires CropFits(img, crop) && IsExp(exp) && IsSqrt(sqrt)
    requires forall x, y :: crop.x0 <= x < crop.x1 && crop.y0 <= y < crop.y1 ==> !IsCandle(img.rows[y][x])
    requires TimeToMinutes(timeStr).Some?
    ensures PredictWithTime(img, crop, timeStr, exp, sqrt) ==
              Some(Prediction(0.5, 0.5, Bullish, 50.0))
  {
    BlankChartScoresZero(img, crop, sqrt);
    var minutes := TimeToMinutes(timeStr).value;
    assert AdjustedScore(0.0, minutes) == 0.0;
    assert Sigmoid(0.0, exp) == 0.5;
    assert PredictFromScore(0.0, minutes, exp) == Prediction(0.5, 0.5, Bullish, 50.0);
  }
}

=== FILE: scores.dfy ===
/** The three heuristic sub-scores of Predictor.cpp: swing structure
    (`trendScoreFromSwings`), double tops and bottoms
    (`doubleTopBottomScore`) and slope against volatility (`momentumScore`). */
module Scores {
  import opened Numeric
  import opened Swings

  /** Number of swings of one kind: highs when `high`, lows otherwise. */
  function CountKind(sw: seq<SwingPoint>, high: bool): (n: nat)
    ensures n <= |sw|
  {
    if |sw| == 0 then 0
    else CountKind(sw[1..], high) + (if sw[0].isHigh == high then 1 else 0)
  }

  /** Values of the swings of one kind, in order: the loops that collect
      `highs` and `lows`. There is one value per swing of that kind, and a
      list ending in that kind ends in that swing's value. */
  function Values(sw: seq<SwingPoint>, high: bool): (v: seq<real>)
    ensures |v| == CountKind(sw, high)
    ensures 0 < |sw| && sw[|sw| - 1].isHigh == high ==> 0 < |v| && v[|v| - 1] == sw[|sw| - 1].value
  {
    if |sw| == 0 then []
    else
      var last := sw[|sw| - 1];
      var init := sw[..|sw| - 1];
      CountKindSnoc(init, last, high);
      assert init + [last] == sw;
      Values(init, high) + (if last.isHigh == high then [last.value] else [])
  }

  /** Counting from the front agrees with counting after appending one swing. */
  lemma {:induction false} CountKindSnoc(sw: seq<SwingPoint>, p: SwingPoint, high: bool)
    ensures CountKind(sw + [p], high) == CountKind(sw, high) + (if p.isHigh == high then 1 else 0)
  {
    if |sw| > 0 {
      assert (sw + [p])[1..] == sw[1..] + [p];
      CountKindSnoc(sw[1..], p, high);
    }
  }

  /** Collecting values distributes over concatenation: the values of a list
      of one kind are those of its first part followed by those of the rest,
      so every value of that kind appears, in the order of the swings. */
  lemma {:induction false} ValuesAppend(a: seq<SwingPoint>, b: seq<SwingPoint>, high: bool)
    ensures Values(a + b, high) == Values(a, high) + Values(b, high)
    decreases |b|
  {
    if |b| == 0 {
      assert a + b == a;
    } else {
      var init, last := b[..|b| - 1], b[|b| - 1];
      assert a + b == (a + init) + [last];
      assert b == init + [last];
      ValuesAppend(a, init, high);
    }
  }

  /** The values of a single swing: its own value when it is of that kind,
      nothing otherwise. Together with `ValuesAppend` this gives the full
      contents of `Values` on any list. */
  lemma ValuesSingle(p: SwingPoint, high: bool)
    ensures Values([p], high) == (if p.isHigh == high then [p.value] else [])
  {
    assert [p][..0] == [];
  }

  /** +1 when the later swing is strictly above the earlier one, otherwise -1;
      a tie counts as "not higher". */
  function Direction(later: real, earlier: real): real
  {
    if later > earlier then 1.0 else -1.0
  }

  // ---------------------------------------------------------------------------
  // Trend
  // ---------------------------------------------------------------------------

  /** `trendScoreFromSwings`: among the last ten swings, a higher high counts
      +1 (else -1) and a higher low counts +1 (else -1). */
  function TrendScore(sw: seq<SwingPoint>): (r: real)
    ensures r == -2.0 || r == 0.0 || r == 2.0
    ensures |sw| < 4 ==> r == 0.0
    ensures var tail := sw[|sw| - (if |sw| < 10 then |sw| else 10)..];
            CountKind(tail, true) < 2 || CountKind(tail, false) < 2 ==> r == 0.0
  {
    if |sw| < 4 then 0.0
    else
      var n := if |sw| < 10 then |sw| else 10;
      var tail := sw[|sw| - n..];
      var highs := Values(tail, true);
      var lows := Values(tail, false);
      if |highs| < 2 || |lows| < 2 then 0.0
      else
        Direction(highs[|highs| - 1], highs[|highs| - 2]) + Direction(lows[|lows| - 1], lows[|lows| - 2])
  }

  /** In an alternating swing list with at least four entries, the last two
      highs and the last two lows are the last four swings, interleaved. */
  lemma LastFourOfAlternating(t: seq<SwingPoint>)
    requires Alternating(t) && 4 <= |t|
    ensures var m := |t|;
            var h := t[m - 1].isHigh;
            var same := Values(t, h);
            var other := Values(t, !h);
            && 2 <= |same| && 2 <= |other|
            && same[|same| - 1] == t[m - 1].value && same[|same| - 2] == t[m - 3].value
            && other[|other| - 1] == t[m - 2].value && other[|other| - 2] == t[m - 4].value
  {
    var m := |t|;
    var h := t[m - 1].isHigh;
    assert t[m - 2].isHigh == !h && t[m - 3].isHigh == h && t[m - 4].isHigh == !h;
    LastTwoOfKind(t, h);
    LastTwoOfKind(t[..m - 1], !h);
    assert t[..m - 1][..m - 2] == t[..m - 2];
    assert Values(t, !h) == Values(t[..m - 1], !h);
  }

  /** When the last swing is of the given kind and the one two places back
      is too, with a swing of the other kind between them, those two are the
      last two values of that kind. */
  lemma {:induction false} LastTwoOfKind(t: seq<SwingPoint>, h: bool)
    requires 3 <= |t|
    requires t[|t| - 1].isHigh == h && t[|t| - 2].isHigh != h && t[|t| - 3].isHigh == h
    ensures var v := Values(t, h);
            2 <= |v| && v[|v| - 1] == t[|t| - 1].value && v[|v| - 2] == t[|t| - 3].value
  {
    var m := |t|;
    var t2, t3 := t[..m - 1], t[..m - 2];
    assert t2[..m - 2] == t3 && t3[..m - 3] == t[..m - 3];
    assert Values(t2, h) == Values(t3, h);
    assert Values(t3, h) == Values(t[..m - 3], h) + [t[m - 3].value];
  }

  /** On alternating swings (what `FindSwings` produces) the trend score is
      decided by the last four swings alone: +1 or -1 for the last swing
      against the one two places before it, plus +1 or -1 for the swing
      before that against the one two places before it. */
  lemma TrendOnAlternating(sw: seq<SwingPoint>)
    requires Alternating(sw) && 4 <= |sw|
    ensures var n := |sw|;
            TrendScore(sw) == Direction(sw[n - 1].value, sw[n - 3].value)
                            + Direction(sw[n - 2].value, sw[n - 4].value)
  {
    var n := |sw|;
    var k := if n < 10 then n else 10;
    var tail := sw[n - k..];
    AlternatingSuffix(sw, n - k);
    TrendOnTail(sw, tail);
    assert tail[k - 1] == sw[n - 1] && tail[k - 2] == sw[n - 2];
    assert tail[k - 3] == sw[n - 3] && tail[k - 4] == sw[n - 4];
  }

  /** The trend score read off the last ten swings (or all of them), when
      those alternate. */
  lemma TrendOnTail(sw: seq<SwingPoint>, tail: seq<SwingPoint>)
    requires 4 <= |sw| && tail == sw[|sw| - (if |sw| < 10 then |sw| else 10)..]
    requires Alternating(tail)
    ensures var m := |tail|;
            TrendScore(sw) == Direction(tail[m - 1].value, tail[m - 3].value)
                            + Direction(tail[m - 2].value, tail[m - 4].value)
  {
    var m := |tail|;
    LastFourOfAlternating(tail);
    var highs, lows := Values(tail, true), Values(tail, false);
    var a, b := tail[m - 1].value, tail[m - 3].value;
    var c, d := tail[m - 2].value, tail[m - 4].value;
    if tail[m - 1].isHigh {
      assert highs[|highs| - 1] == a && highs[|highs| - 2] == b;
      assert lows[|lows| - 1] == c && lows[|lows| - 2] == d;
      TrendFromValues(sw, tail, highs, lows);
      assert TrendScore(sw) == Direction(a, b) + Direction(c, d);
    } else {
      assert lows[|lows| - 1] == a && lows[|lows| - 2] == b;
      assert highs[|highs| - 1] == c && highs[|highs| - 2] == d;
      TrendFromValues(sw, tail, highs, lows);
      assert TrendScore(sw) == Direction(c, d) + Direction(a, b);
    }
  }

  /** With at least two highs and two lows among the last ten swings, the
      trend score is the two comparisons of their last two values. */
  lemma TrendFromValues(sw: seq<SwingPoint>, tail: seq<SwingPoint>, highs: seq<real>, lows: seq<real>)
    requires 4 <= |sw| && tail == sw[|sw| - (if |sw| < 10 then |sw| else 10)..]
    requires highs == Values(tail, true) && lows == Values(tail, false)
    requires 2 <= |highs| && 2 <= |lows|
    ensures TrendScore(sw) == Direction(highs[|highs| - 1], highs[|highs| - 2])
                            + Direction(lows[|lows| - 1], lows[|lows| - 2])
  {
  }

  /** Every suffix of an alternating list alternates. */
  lemma AlternatingSuffix(sw: seq<SwingPoint>, from: int)
    requires Alternating(sw) && 0 <= from <= |sw|
    ensures Alternating(sw[from..])
  {
    var t := sw[from..];
    forall a, b | 0 <= a < b < |t| && b == a + 1
      ensures t[a].isHigh != t[b].isHigh
    {
      assert t[a] == sw[from + a] && t[b] == sw[from + b];
    }
  }

  /** Hence on alternating swings the score is +2 exactly for a higher high
      with a higher low, and -2 exactly when neither is higher. */
  lemma TrendExtremes(sw: seq<SwingPoint>)
    requires Alternating(sw) && 4 <= |sw|
    ensures var n := |sw|;
            && (TrendScore(sw) == 2.0 <==>
                  sw[n - 1].value > sw[n - 3].value && sw[n - 2].value > sw[n - 4].value)
            && (TrendScore(sw) == -2.0 <==>
                  sw[n - 1].value <= sw[n - 3].value && sw[n - 2].value <= sw[n - 4].value)
  {
    TrendOnAlternating(sw);
  }

  // ---------------------------------------------------------------------------
  // Double top / bottom
  // ---------------------------------------------------------------------------

  const DoubleTolerance: real := 0.015
  const ReversalScore: real := 1.2

  predicate Near(a: real, b: real)
  {
    Abs(a - b) <= DoubleTolerance
  }

  /** `doubleTopBottomScore`: -1.2 when the last two highs are within the
      tolerance, +1.2 when the last two lows are, the sum when both are. */
  function DoubleTopBottomScore(sw: seq<SwingPoint>): (r: real)
    ensures r == -ReversalScore || r == 0.0 || r == ReversalScore
    ensures |sw| < 6 ==> r == 0.0
    ensures CountKind(sw, true) < 2 ==> r != -ReversalScore
    ensures CountKind(sw, false) < 2 ==> r != ReversalScore
  {
    if |sw| < 6 then 0.0
    else
      var highs := Values(sw, true);
      var lows := Values(sw, false);
      if |highs| < 2 && |lows| < 2 then 0.0
      else
        var top := if |highs| >= 2 && Near(highs[|highs| - 1], highs[|highs| - 2]) then -ReversalScore else 0.0;
        var bottom := if |lows| >= 2 && Near(lows[|lows| - 1], lows[|lows| - 2]) then ReversalScore else 0.0;
        top + bottom
  }

  /** On alternating swings with at least six entries, the reversal score
      reads the last four swings: a double top among the two highs, a double
      bottom among the two lows, and zero when both or neither occur. */
  lemma DoubleTopBottomOnAlternating(sw: seq<SwingPoint>)
    requires Alternating(sw) && 6 <= |sw|
    ensures var n := |sw|;
            var h := sw[n - 1].isHigh;
            var topPair := if h then Near(sw[n - 1].value, sw[n - 3].value) else Near(sw[n - 2].value, sw[n - 4].value);
            var bottomPair := if h then Near(sw[n - 2].value, sw[n - 4].value) else Near(sw[n - 1].value, sw[n - 3].value);
            && (DoubleTopBottomScore(sw) == -ReversalScore <==> topPair && !bottomPair)
            && (DoubleTopBottomScore(sw) == ReversalScore <==> bottomPair && !topPair)
  {
    LastFourOfAlternating(sw);
  }

  // ---------------------------------------------------------------------------
  // Momentum
  // ---------------------------------------------------------------------------

  const MomentumMinPoints: int := 20
  const MomentumSpan: int := 120

  /** First index of the momentum span: the last 120 points, or all of them. */
  function MomentumStart(n: int): (a: int)
    ensures 0 <= a && n - MomentumSpan <= a
  {
    if 0 < n - MomentumSpan then n - MomentumSpan else 0
  }

  /** Successive differences of x. */
  function Deltas(x: seq<real>): (d: seq<real>)
    requires 0 < |x|
    ensures |d| == |x| - 1
  {
    seq(|x| - 1, i requires 0 <= i < |x| - 1 => x[i + 1] - x[i])
  }

  function SquaredDeviations(d: seq<real>, mean: real): (q: seq<real>)
    ensures |q| == |d|
  {
    seq(|d|, i requires 0 <= i < |d| => (d[i] - mean) * (d[i] - mean))
  }

  /** Population variance of a non-empty sequence: never negative, zero for
      a constant sequence, and positive as soon as two entries differ. */
  function Variance(d: seq<real>): (v: real)
    requires 0 < |d|
    ensures 0.0 <= v
    ensures Constant(d, d[0]) ==> v == 0.0
    ensures !Constant(d, d[0]) ==> 0.0 < v
  {
    var mean := Mean(d);
    var q := SquaredDeviations(d, mean);
    assert 0.0 <= Mean(q) by {
      var lo, hi := Bounds(q);
      DeviationsNonNegative(d, mean);
      assert Within(q, 0.0, hi);
      MeanWithin(q, 0.0, hi);
    }
    assert Constant(d, d[0]) ==> Mean(q) == 0.0 by {
      if Constant(d, d[0]) {
        assert Within(d, d[0], d[0]);
        MeanWithin(d, d[0], d[0]);
        assert Within(q, 0.0, 0.0);
        MeanWithin(q, 0.0, 0.0);
      }
    }
    assert !Constant(d, d[0]) ==> 0.0 < Mean(q) by {
      if !Constant(d, d[0]) {
        SpreadPositive(d, mean);
      }
    }
    Mean(q)
  }

  /** A sequence that is not constant has a positive mean squared deviation
      from any centre. */
  lemma SpreadPositive(d: seq<real>, mean: real)
    requires 0 < |d| && !Constant(d, d[0])
    ensures 0.0 < Mean(SquaredDeviations(d, mean))
  {
    var q := SquaredDeviations(d, mean);
    var j := Deviating(d, mean);
    DeviationsNonNegative(d, mean);
    DeviationPositive(d, mean, j);
    SumPositive(q, j);
    DivMonotoneStrict(0.0, Sum(q), |q| as real);
  }

  lemma DeviationsNonNegative(d: seq<real>, mean: real)
    ensures forall i :: 0 <= i < |d| ==> 0.0 <= SquaredDeviations(d, mean)[i]
  {
    var q := SquaredDeviations(d, mean);
    forall i | 0 <= i < |d| ensures 0.0 <= q[i] {
      SquareBound(d[i] - mean, Abs(d[i] - mean));
    }
  }

  /** An entry away from the centre has a positive squared deviation. */
  lemma DeviationPositive(d: seq<real>, mean: real, j: int)
    requires 0 <= j < |d| && d[j] != mean
    ensures 0.0 < SquaredDeviations(d, mean)[j]
  {
    var e := d[j] - mean;
    calc {
      SquaredDeviations(d, mean)[j];
    ==
      e * e;
    >  { SquarePositive(e); }
      0.0;
    }
  }

  lemma SquarePositive(e: real)
    requires e != 0.0
    ensures 0.0 < e * e
  {
    if e < 0.0 {
      assert e * e == (-e) * (-e);
    }
  }

  /** In a sequence that is not constant, some entry differs from any given
      value m (either the first entry does, or one that differs from it). */
  lemma Deviating(d: seq<real>, m: real) returns (j: int)
    requires 0 < |d| && !Constant(d, d[0])
    ensures 0 <= j < |d| && d[j] != m
  {
    var i :| 0 <= i < |d| && d[i] != d[0];
    j := if d[0] != m then 0 else i;
  }


  /** `momentumScore`: six times the rise over the span minus four times the
      standard deviation of the steps, or 0 for fewer than 20 points. */
  function Momentum(s: seq<real>, sqrt: real -> real): (r: real)
    ensures |s| < MomentumMinPoints ==> r == 0.0
  {
    if |s| < MomentumMinPoints then 0.0
    else
      var a := MomentumStart(|s|);
      var slope := s[|s| - 1] - s[a];
      var stdev := sqrt(Variance(Deltas(s[a..])));
      6.0 * slope - 4.0 * stdev
  }

  lemma VarianceBounds(d: seq<real>, lo: real, hi: real)
    requires 0 < |d| && lo <= hi
    requires Within(d, lo, hi)
    ensures 0.0 <= Variance(d) <= (hi - lo) * (hi - lo)
  {
    var mean := Mean(d);
    MeanWithin(d, lo, hi);
    var q := SquaredDeviations(d, mean);
    var span := (hi - lo) * (hi - lo);
    forall i | 0 <= i < |q|
      ensures 0.0 <= q[i] <= span
    {
      var e := d[i] - mean;
      assert lo - hi <= e <= hi - lo;
      SquareBound(e, hi - lo);
    }
    MeanWithin(q, 0.0, span);
  }

  lemma SquareBound(e: real, b: real)
    requires -b <= e <= b
    ensures 0.0 <= e * e <= b * b
  {
    if e >= 0.0 {
      assert e * e <= b * e <= b * b;
    } else {
      assert e * e <= (-b) * e <= b * b;
    }
  }

  /** Volatility only ever lowers the score: it is at most six times the
      rise over the span. */
  lemma MomentumAtMostSlope(s: seq<real>, sqrt: real -> real)
    requires IsSqrt(sqrt) && MomentumMinPoints <= |s|
    ensures Momentum(s, sqrt) <= 6.0 * (s[|s| - 1] - s[MomentumStart(|s|)])
  {
    var a := MomentumStart(|s|);
    var d := Deltas(s[a..]);
    var lo, hi := Bounds(d);
    VarianceBounds(d, lo, hi);
  }

  /** Volatility strictly lowers the score: when the steps over the span are
      not all equal, the momentum is strictly below six times the rise. */
  lemma MomentumPenalisesChop(s: seq<real>, sqrt: real -> real)
    requires IsSqrt(sqrt) && MomentumMinPoints <= |s|
    requires var d := Deltas(s[MomentumStart(|s|)..]); !Constant(d, d[0])
    ensures Momentum(s, sqrt) < 6.0 * (s[|s| - 1] - s[MomentumStart(|s|)])
  {
    var a := MomentumStart(|s|);
    var v := Variance(Deltas(s[a..]));
    assert 0.0 < v;
    assert 0.0 < sqrt(v) by {
      var r := sqrt(v);
      assert 0.0 <= r && r * r == v;
    }
  }

  /** Some pair of bounds for a finite sequence. */
  lemma {:induction false} Bounds(s: seq<real>) returns (lo: real, hi: real)
    ensures lo <= hi && Within(s, lo, hi)
  {
    if |s| == 0 {
      lo, hi := 0.0, 0.0;
    } else {
      var lo', hi' := Bounds(s[..|s| - 1]);
      lo := if s[|s| - 1] < lo' then s[|s| - 1] else lo';
      hi := if s[|s| - 1] > hi' then s[|s| - 1] else hi';
      assert forall i :: 0 <= i < |s| - 1 ==> s[..|s| - 1][i] == s[i];
    }
  }

  /** For a series in [0, 1] the momentum score lies in [-14, 6]: the rise is
      at most 1 in size and the steps' standard deviation at most 2. */
  lemma MomentumRange(s: seq<real>, sqrt: real -> real)
    requires IsSqrt(sqrt) && Within(s, 0.0, 1.0)
    ensures -14.0 <= Momentum(s, sqrt) <= 6.0
  {
    if MomentumMinPoints <= |s| {
      var a := MomentumStart(|s|);
      var x := s[a..];
      var d := Deltas(x);
      forall i | 0 <= i < |d| ensures -1.0 <= d[i] <= 1.0 {
        assert d[i] == s[a + i + 1] - s[a + i];
      }
      VarianceBounds(d, -1.0, 1.0);
      var v := Variance(d);
      RootBound(sqrt(v), v, 2.0);
    }
  }

  /** A flat series has no momentum. */
  lemma MomentumFlat(s: seq<real>, sqrt: real -> real, c: real)
    requires IsSqrt(sqrt) && Constant(s, c)
    ensures Momentum(s, sqrt) == 0.0
  {
    if MomentumMinPoints <= |s| {
      var a := MomentumStart(|s|);
      var d := Deltas(s[a..]);
      forall i | 0 <= i < |d| ensures 0.0 <= d[i] <= 0.0 {
        assert d[i] == s[a + i + 1] - s[a + i];
      }
      VarianceBounds(d, 0.0, 0.0);
      var v := Variance(d);
      RootBound(sqrt(v), v, 0.0);
    }
  }
}

=== FILE: smoothing.dfy ===
/** `Predictor::smoothSeries`: a centred moving average whose window is cut
    short at both ends of the series. */
module Smoothing {
  import opened Numeric

  /** First index of the window around i. */
  function WindowLo(i: int, w: int): (a: int)
    ensures a == 0 || a == i - w
    ensures 0 <= a && i - w <= a
  {
    if i - w < 0 then 0 else i - w
  }

  /** Last index of the window around i in a series of length n. */
  function WindowHi(n: int, i: int, w: int): (b: int)
    ensures b == n - 1 || b == i + w
    ensures b <= n - 1 && b <= i + w
  {
    if n - 1 < i + w then n - 1 else i + w
  }

  /** The entries averaged into output i. */
  function Window(s: seq<real>, i: int, w: int): (win: seq<real>)
    requires 0 <= i < |s| && 0 <= w
    ensures 0 < |win|
  {
    s[WindowLo(i, w)..WindowHi(|s|, i, w) + 1]
  }

  /** The smoothed series: a window of at most 1 leaves the series as it is;
      otherwise output i is the mean of the entries from max(0, i - window)
      through min(n - 1, i + window). */
  function Smooth(s: seq<real>, window: int): (r: seq<real>)
    ensures |r| == |s|
    ensures window <= 1 ==> r == s
  {
    if window <= 1 then s
    else seq(|s|, i requires 0 <= i < |s| => Mean(Window(s, i, window)))
  }

  /** Each smoothed value lies between the least and the greatest entry of
      its window. */
  lemma SmoothWithinWindow(s: seq<real>, window: int, i: int, lo: real, hi: real)
    requires 1 < window && 0 <= i < |s|
    requires Within(Window(s, i, window), lo, hi)
    ensures lo <= Smooth(s, window)[i] <= hi
  {
    MeanWithin(Window(s, i, window), lo, hi);
  }

  /** Smoothing keeps a series inside any bounds it already respects; in
      particular a series in [0, 1] stays in [0, 1]. */
  lemma SmoothPreservesBounds(s: seq<real>, window: int, lo: real, hi: real)
    requires Within(s, lo, hi)
    ensures Within(Smooth(s, window), lo, hi)
  {
    if 1 < window {
      forall i | 0 <= i < |s|
        ensures lo <= Smooth(s, window)[i] <= hi
      {
        var win := Window(s, i, window);
        assert Within(win, lo, hi) by {
          var a := WindowLo(i, window);
          forall k | 0 <= k < |win| ensures lo <= win[k] <= hi {
            assert win[k] == s[a + k];
          }
        }
        SmoothWithinWindow(s, window, i, lo, hi);
      }
    }
  }

  /** A flat series is a fixed point of smoothing. */
  lemma SmoothFlat(s: seq<real>, window: int, c: real)
    requires Constant(s, c)
    ensures Smooth(s, window) == s
  {
    assert Within(s, c, c);
    SmoothPreservesBounds(s, window, c, c);
  }
}

=== FILE: swings.dfy ===
/** `Predictor::findSwings`: strict local extrema of a series, followed by a
    noise-reduction pass that merges runs of same-type swings into the most
    extreme one and drops reversals smaller than a minimum move. */
module Swings {
  import opened Numeric

  datatype SwingPoint = SwingPoint(index: int, value: real, isHigh: bool)

  /** Minimum size of a reversal that the cleaning pass keeps. */
  const MinMove: real := 0.02

  /** s[i] is strictly above each of its w neighbours on either side. */
  predicate IsStrictMax(s: seq<real>, i: int, w: int)
    requires 0 <= w <= i < |s| - w
  {
    forall j :: i - w <= j <= i + w && j != i ==> s[j] < s[i]
  }

  /** s[i] is strictly below each of its w neighbours on either side. */
  predicate IsStrictMin(s: seq<real>, i: int, w: int)
    requires 0 <= w <= i < |s| - w
  {
    forall j :: i - w <= j <= i + w && j != i ==> s[i] < s[j]
  }

  /** p records an extremum of s for window w: a point of s whose index has a
      full window on both sides, strict on every neighbour, classified as a
      high exactly when it is a strict maximum. */
  predicate IsRawSwing(s: seq<real>, w: int, p: SwingPoint)
  {
    && 0 <= w <= p.index < |s| - w
    && p.value == s[p.index]
    && (IsStrictMax(s, p.index, w) || IsStrictMin(s, p.index, w))
    && (p.isHigh <==> IsStrictMax(s, p.index, w))
  }

  /** Neighbouring swings are of opposite kinds. The neighbour is named as a
      second bound variable b == a + 1 rather than written sw[a + 1], so that
      the quantifier is triggered on sw[a] and sw[b] together and does not
      feed itself new indices (a matching loop). */
  ghost predicate Alternating(sw: seq<SwingPoint>)
  {
    forall a, b :: 0 <= a < b < |sw| && b == a + 1 ==> sw[a].isHigh != sw[b].isHigh
  }

  predicate Increasing(sw: seq<SwingPoint>)
  {
    forall a, b :: 0 <= a < b < |sw| ==> sw[a].index < sw[b].index
  }

  // ---------------------------------------------------------------------------
  // Raw detection
  // ---------------------------------------------------------------------------

  /** The loop over k = k .. w that clears `isMax` and `isMin`, leaving early
      once both are false. */
  function ScanNeighbours(s: seq<real>, i: int, w: int, k: int, isMax: bool, isMin: bool): (r: (bool, bool))
    requires 0 <= w <= i < |s| - w && 1 <= k <= w + 1
    ensures r.0 <==> isMax && forall j :: (i - w <= j <= i - k || i + k <= j <= i + w) ==> s[j] < s[i]
    ensures r.1 <==> isMin && forall j :: (i - w <= j <= i - k || i + k <= j <= i + w) ==> s[i] < s[j]
    decreases w + 1 - k
  {
    if k > w then (isMax, isMin)
    else
      var isMax' := isMax && !(s[i - k] >= s[i] || s[i + k] >= s[i]);
      var isMin' := isMin && !(s[i - k] <= s[i] || s[i + k] <= s[i]);
      if !isMax' && !isMin' then (false, false)
      else ScanNeighbours(s, i, w, k + 1, isMax', isMin')
  }

  /** The outer loop from index i up to |s| - w - 1. */
  function RawSwingsFrom(s: seq<real>, w: int, i: int): (r: seq<SwingPoint>)
    requires 0 <= w <= i <= |s| - w
    ensures forall a :: 0 <= a < |r| ==> IsRawSwing(s, w, r[a]) && i <= r[a].index
    ensures Increasing(r)
    ensures forall j :: i <= j < |s| - w && (IsStrictMax(s, j, w) || IsStrictMin(s, j, w)) ==>
              SwingPoint(j, s[j], IsStrictMax(s, j, w)) in r
    decreases |s| - w - i
  {
    if i == |s| - w then []
    else
      var (isMax, isMin) := ScanNeighbours(s, i, w, 1, true, true);
      assert isMax == IsStrictMax(s, i, w) && isMin == IsStrictMin(s, i, w);
      var rest := RawSwingsFrom(s, w, i + 1);
      if isMax || isMin then
        var p := SwingPoint(i, s[i], isMax);
        assert IsRawSwing(s, w, p);
        [p] + rest
      else rest
  }

  /** Every strict extremum of s with a full window on both sides, in index
      order; nothing when the series is shorter than 2w + 1. */
  function RawSwings(s: seq<real>, w: int): (r: seq<SwingPoint>)
    requires 0 <= w
    ensures forall a :: 0 <= a < |r| ==> IsRawSwing(s, w, r[a])
    ensures Increasing(r)
    ensures forall j :: w <= j < |s| - w && (IsStrictMax(s, j, w) || IsStrictMin(s, j, w)) ==>
              SwingPoint(j, s[j], IsStrictMax(s, j, w)) in r
  {
    if |s| < 2 * w + 1 then [] else RawSwingsFrom(s, w, w)
  }

  // ---------------------------------------------------------------------------
  // Cleaning
  // ---------------------------------------------------------------------------

  /** q is of the same kind as p and at least as extreme: no lower for a
      high, no higher for a low. */
  predicate AtLeastAsExtreme(q: SwingPoint, p: SwingPoint)
  {
    q.isHigh == p.isHigh && (if p.isHigh then p.value <= q.value else q.value <= p.value)
  }

  /** One iteration of the cleaning loop. The first swing is always kept. A
      swing of the same kind as the last kept one merges with it, the more
      extreme of the two surviving (the earlier one on a tie). A swing of the
      other kind is appended exactly when it moves at least `MinMove` away
      from the last kept one. Every earlier entry is left alone. */
  function CleanStep(cleaned: seq<SwingPoint>, sp: SwingPoint): (r: seq<SwingPoint>)
    ensures 0 < |r| && |cleaned| <= |r|
    ensures |cleaned| == 0 ==> r == [sp]
    ensures forall a :: 0 <= a < |cleaned| - 1 ==> r[a] == cleaned[a]
    ensures 0 < |cleaned| && sp.isHigh == cleaned[|cleaned| - 1].isHigh ==>
              var last := cleaned[|cleaned| - 1];
              && |r| == |cleaned|
              && (r[|r| - 1] == last || r[|r| - 1] == sp)
              && AtLeastAsExtreme(r[|r| - 1], last) && AtLeastAsExtreme(r[|r| - 1], sp)
              && (sp.value == last.value ==> r == cleaned)
    ensures 0 < |cleaned| && sp.isHigh != cleaned[|cleaned| - 1].isHigh ==>
              var last := cleaned[|cleaned| - 1];
              && (r == cleaned + [sp] <==> Abs(sp.value - last.value) >= MinMove)
              && (Abs(sp.value - last.value) < MinMove ==> r == cleaned)
    ensures forall a :: 0 <= a < |cleaned| ==> AtLeastAsExtreme(r[a], cleaned[a])
    ensures Alternating(cleaned) ==> Alternating(r)
    ensures forall p :: p in r ==> p in cleaned || p == sp
    ensures Increasing(cleaned) && (0 < |cleaned| ==> cleaned[|cleaned| - 1].index < sp.index) ==>
              Increasing(r) && r[|r| - 1].index <= sp.index
  {
    if |cleaned| == 0 then [sp]
    else
      var last := cleaned[|cleaned| - 1];
      if sp.isHigh == last.isHigh then
        if (sp.isHigh && sp.value > last.value) || (!sp.isHigh && sp.value < last.value)
        then cleaned[..|cleaned| - 1] + [sp]
        else cleaned
      else if Abs(sp.value - last.value) >= MinMove then cleaned + [sp]
      else cleaned
  }

  /** The cleaning loop over the remaining raw swings. Entries already kept
      before the last one never change; the last one and every later entry
      can only be replaced by a more extreme swing of its kind. */
  function CleanFrom(cleaned: seq<SwingPoint>, raw: seq<SwingPoint>): (r: seq<SwingPoint>)
    ensures |cleaned| <= |r|
    ensures forall a :: 0 <= a < |cleaned| - 1 ==> r[a] == cleaned[a]
    ensures forall a :: 0 <= a < |cleaned| ==> AtLeastAsExtreme(r[a], cleaned[a])
    ensures Alternating(cleaned) ==> Alternating(r)
    ensures forall p :: p in r ==> p in cleaned || p in raw
    ensures 0 < |r| <==> 0 < |cleaned| || 0 < |raw|
    ensures Increasing(cleaned) && Increasing(raw) &&
            (0 < |cleaned| && 0 < |raw| ==> cleaned[|cleaned| - 1].index < raw[0].index) ==>
              Increasing(r)
    decreases |raw|
  {
    if |raw| == 0 then cleaned
    else
      var next := CleanStep(cleaned, raw[0]);
      var rest := raw[1..];
      StepKeepsOrder(cleaned, raw);
      var r := CleanFrom(next, rest);
      KeptAcrossStep(cleaned, next, r);
      r
  }

  /** If the kept swings and the raw swings are in index order, with the raw
      ones after the kept ones, the same holds after one cleaning step. */
  lemma StepKeepsOrder(cleaned: seq<SwingPoint>, raw: seq<SwingPoint>)
    requires 0 < |raw|
    ensures var next := CleanStep(cleaned, raw[0]);
            var rest := raw[1..];
            Increasing(cleaned) && Increasing(raw) &&
            (0 < |cleaned| ==> cleaned[|cleaned| - 1].index < raw[0].index) ==>
              Increasing(next) && Increasing(rest) &&
              (0 < |rest| ==> next[|next| - 1].index < rest[0].index)
  {
    if Increasing(raw) && 1 < |raw| {
      assert raw[0].index < raw[1].index;
    }
  }

  /** What one step keeps of the list before it, and the rest of the loop
      keeps of the list after that step, the whole loop keeps. */
  lemma KeptAcrossStep(cleaned: seq<SwingPoint>, next: seq<SwingPoint>, r: seq<SwingPoint>)
    requires |cleaned| <= |next| <= |r|
    requires forall a :: 0 <= a < |cleaned| - 1 ==> next[a] == cleaned[a]
    requires forall a :: 0 <= a < |next| - 1 ==> r[a] == next[a]
    requires forall a :: 0 <= a < |cleaned| ==> AtLeastAsExtreme(next[a], cleaned[a])
    requires forall a :: 0 <= a < |next| ==> AtLeastAsExtreme(r[a], next[a])
    ensures forall a :: 0 <= a < |cleaned| - 1 ==> r[a] == cleaned[a]
    ensures forall a :: 0 <= a < |cleaned| ==> AtLeastAsExtreme(r[a], cleaned[a])
  {
  }

  /** A swing of the other kind that moves at least `MinMove` away from the
      last kept swing is kept for good: everything kept so far stays, and the
      new position holds that swing or a more extreme one of its kind. */
  lemma ReversalKept(cleaned: seq<SwingPoint>, raw: seq<SwingPoint>)
    requires 0 < |cleaned| && 0 < |raw|
    requires raw[0].isHigh != cleaned[|cleaned| - 1].isHigh
    requires Abs(raw[0].value - cleaned[|cleaned| - 1].value) >= MinMove
    ensures var r := CleanFrom(cleaned, raw);
            && |cleaned| < |r| && cleaned <= r
            && AtLeastAsExtreme(r[|cleaned|], raw[0])
  {
    var next := cleaned + [raw[0]];
    assert CleanStep(cleaned, raw[0]) == next;
    var r := CleanFrom(cleaned, raw);
    assert forall a :: 0 <= a < |cleaned| ==> r[a] == next[a];
  }

  /** `Predictor::findSwings`: cleaned swings of s for a window of w points
      on each side. */
  function FindSwings(s: seq<real>, w: int): (r: seq<SwingPoint>)
    requires 0 <= w
    ensures |s| < 2 * w + 1 ==> r == []
    ensures Alternating(r)
    ensures Increasing(r)
    ensures forall a :: 0 <= a < |r| ==> IsRawSwing(s, w, r[a])
    ensures 0 < |r| <==> exists j :: w <= j < |s| - w && (IsStrictMax(s, j, w) || IsStrictMin(s, j, w))
    ensures 0 < |r| ==> 0 < |RawSwings(s, w)| && AtLeastAsExtreme(r[0], RawSwings(s, w)[0])
  {
    if |s| < 2 * w + 1 then []
    else
      var raw := RawSwings(s, w);
      var r := CleanFrom([], raw);
      assert forall a :: 0 <= a < |r| ==> IsRawSwing(s, w, r[a]) by {
        forall a | 0 <= a < |r| ensures IsRawSwing(s, w, r[a]) {
          assert r[a] in raw;
        }
      }
      assert 0 < |raw| ==> r == CleanFrom([raw[0]], raw[1..]) by {
        if 0 < |raw| {
          assert CleanStep([], raw[0]) == [raw[0]];
        }
      }
      r
  }

  /** When the first two raw swings are a high and a low (in either order)
      at least `MinMove` apart, the first one is the first swing reported and
      a second swing follows it, as extreme as the second raw swing or more.
      So a reversal of that size is never cleaned away. */
  lemma FirstReversalKept(s: seq<real>, w: int)
    requires 0 <= w
    requires var raw := RawSwings(s, w);
             && 2 <= |raw| && raw[0].isHigh != raw[1].isHigh
             && Abs(raw[1].value - raw[0].value) >= MinMove
    ensures var raw := RawSwings(s, w);
            var r := FindSwings(s, w);
            2 <= |r| && r[0] == raw[0] && AtLeastAsExtreme(r[1], raw[1])
  {
    var raw := RawSwings(s, w);
    assert |s| >= 2 * w + 1;
    assert CleanStep([], raw[0]) == [raw[0]];
    assert CleanFrom([], raw) == CleanFrom([raw[0]], raw[1..]);
    ReversalKept([raw[0]], raw[1..]);
  }

  /** A flat series has no strict extremum, so no swings. */
  lemma FlatHasNoSwings(s: seq<real>, w: int, c: real)
    requires 1 <= w
    requires Constant(s, c)
    ensures FindSwings(s, w) == []
  {
    forall j | w <= j < |s| - w
      ensures !IsStrictMax(s, j, w) && !IsStrictMin(s, j, w)
    {
      assert s[j - 1] == s[j];
    }
  }
}

=== FILE: timeframe.dfy ===
/** `timeframeFromFilename` of main.cpp: the chart's minutes per candle read
    off the file name by substring search, in the order test30, test5,
    test1, with -1 when none occurs. */
module Timeframe {
  import opened Numeric

  /** `sub` occurs in `s` starting at position i. */
  predicate OccursAt(s: string, sub: string, i: int)
  {
    0 <= i && i + |sub| <= |s| && s[i..i + |sub|] == sub
  }

  ghost predicate Contains(s: string, sub: string)
  {
    exists i :: OccursAt(s, sub, i)
  }

  /** `std::string::find` from position i: the first occurrence at or after
      i, or None for `npos`. */
  function FindFrom(s: string, sub: string, i: nat): (r: Option<nat>)
    requires i <= |s|
    ensures r.Some? ==> i <= r.value && OccursAt(s, sub, r.value)
    ensures r.Some? ==> forall k :: i <= k < r.value ==> !OccursAt(s, sub, k)
    ensures r.None? ==> forall k :: i <= k ==> !OccursAt(s, sub, k)
    decreases |s| - i
  {
    if i + |sub| > |s| then None
    else if s[i..i + |sub|] == sub then Some(i)
    else if i == |s| then None
    else FindFrom(s, sub, i + 1)
  }

  /** `find(sub) != npos` is exactly "sub occurs in s". */
  lemma FindIffContains(s: string, sub: string)
    ensures FindFrom(s, sub, 0).Some? <==> Contains(s, sub)
  {
    var r := FindFrom(s, sub, 0);
    if r.Some? {
      assert OccursAt(s, sub, r.value);
    }
  }

  function Found(s: string, sub: string): (b: bool)
    ensures b <==> Contains(s, sub)
  {
    FindIffContains(s, sub);
    FindFrom(s, sub, 0).Some?
  }

  /** The timeframe in minutes named by a chart file name. */
  function TimeframeFromFilename(path: string): (r: int)
    ensures r == -1 || r == 1 || r == 5 || r == 30
    ensures r == 30 <==> Contains(path, "test30")
    ensures r == 5 <==> !Contains(path, "test30") && Contains(path, "test5")
    ensures r == 1 <==> !Contains(path, "test30") && !Contains(path, "test5") && Contains(path, "test1")
    ensures r == -1 <==> !Contains(path, "test30") && !Contains(path, "test5") && !Contains(path, "test1")
  {
    if Found(path, "test30") then 30
    else if Found(path, "test5") then 5
    else if Found(path, "test1") then 1
    else -1
  }

  /** An occurrence survives adding text on either side. */
  lemma {:induction false} ContainsInContext(pre: string, s: string, post: string, sub: string)
    requires Contains(s, sub)
    ensures Contains(pre + s + post, sub)
  {
    var i :| OccursAt(s, sub, i);
    var t := pre + s + post;
    assert t[|pre| + i..|pre| + i + |sub|] == s[i..i + |sub|];
    assert OccursAt(t, sub, |pre| + i);
  }

  /** Putting a directory in front of a name, or an extension after it, never
      shortens the timeframe read from it: a name read as 30 stays 30, and a
      recognised name stays recognised. */
  lemma TimeframeInContext(pre: string, name: string, post: string)
    ensures TimeframeFromFilename(name) == 30 ==> TimeframeFromFilename(pre + name + post) == 30
    ensures TimeframeFromFilename(name) != -1 ==> TimeframeFromFilename(pre + name + post) != -1
    ensures TimeframeFromFilename(name) <= TimeframeFromFilename(pre + name + post)
  {
    if Contains(name, "test30") {
      ContainsInContext(pre, name, post, "test30");
    } else if Contains(name, "test5") {
      ContainsInContext(pre, name, post, "test5");
    } else if Contains(name, "test1") {
      ContainsInContext(pre, name, post, "test1");
    }
  }

  /** The search is by substring, not by whole name: "test15" contains
      "test1" but neither "test30" nor "test5", so it reads as 1 minute. */
  lemma Test15ReadsAsOne()
    ensures TimeframeFromFilename("charts/test15.png") == 1
  {
    var s := "charts/test15.png";
    assert OccursAt(s, "test1", 7);
    forall i ensures !OccursAt(s, "test5", i) {
      if 0 <= i && i + 5 <= |s| {
        assert s[i..i + 5][0] == s[i] && s[i..i + 5][4] == s[i + 4];
      }
    }
    forall i ensures !OccursAt(s, "test30", i) {
      if 0 <= i && i + 6 <= |s| {
        assert s[i..i + 6][4] == s[i + 4];
      }
    }
  }

  /** test30 is searched first, so it wins over a later test1. */
  lemma Test30BeatsTest1()
    ensures TimeframeFromFilename("test30_test1.png") == 30
  {
    assert OccursAt("test30_test1.png", "test30", 0);
  }
}
